=== FILE: README.md ===
# PlayerControlView, modelled in Dafny

A model of the deterministic core of the ExoPlayer `PlayerControlView` (a
customised fork with a debounced keyboard seek and a programme guide). The
player, its timeline and the clock are read-only snapshots and parameters;
timers are lists of pending fire times; every operation is a pure function
or a method with loops, proved against an independent definition, an
invariant it keeps, or an inverse.

Modules, one per concern of the class:

- `Common`: optional values and results, the exceptions the view raises, the
  `C.TIME_UNSET` / `C.TIME_END_OF_SOURCE` sentinels, Java's truncating `/`
  and `%`, `Math.round`, the `(long)` cast and `C.usToMs`.
- `Playback`: the player snapshot (timeline of windows and their periods,
  state, speed, positions) and the listener swap of `setPlayer`.
- `AdMarkers`: the ad-marker scan of `updateProgress` over one window or all
  windows, the parallel arrays that grow by doubling, and the extra markers.
- `TimeBar`: multi-window eligibility, the time-bar mode, and
  `seekToTimeBarPosition`, the inverse of the scan's window offsets.
- `PollDelay`: the delay of the next progress poll.
- `Epg`: the programme-guide rebase of position and duration.
- `Progress`: `updateProgress` as a whole, composed from the above.
- `Visibility`: show, hide, the auto-hide timer, attach/detach and touch.
- `SeekText`: the `H:MM:SS` label of the pending seek and a parser for it.
- `SeekAccumulator`: `forward` / `rewind(long)` and the delayed flush.
- `MediaKeys`: the two-mode key table and the per-key actions.
- `Navigation`: rewind, fast-forward, previous and next targets, the button
  enable rules, and the repeat-mode coercion.

## Model

| member | source | states |
|---|---|---|
| Common.JavaDiv | library/ui/src/main/java/com/google/android/exoplayer2/ui/PlayerControlView.java:841-843 | Java `long` division by a positive divisor truncates toward zero: the remainder is in `[0, b)` for a non-negative dividend and in `(-b, 0]` for a negative one |
| Common.JavaRem | library/ui/src/main/java/com/google/android/exoplayer2/ui/PlayerControlView.java:842-842 | `position % period` has the sign of the position and reassembles the dividend with the truncated quotient |
| Common.Round | library/ui/src/main/java/com/google/android/exoplayer2/ui/PlayerControlView.java:841-841 | `Math.round` returns the integer within half of its argument, ties going up |
| Common.TruncateToLong | library/ui/src/main/java/com/google/android/exoplayer2/ui/PlayerControlView.java:846-847 | the `(long)` cast of the real-time delay is the integer part, toward zero |
| Common.UsToMs | library/ui/src/main/java/com/google/android/exoplayer2/ui/PlayerControlView.java:769-778 | `C.usToMs` keeps `TIME_UNSET` and otherwise truncates to whole milliseconds |
| Playback.SetPlayer | library/ui/src/main/java/com/google/android/exoplayer2/ui/PlayerControlView.java:388-403 | swapping to the same player issues nothing; otherwise the old listener is removed before the new one is added, and the view ends up listening to exactly the new player |
| AdMarkers.ScanAdGroups | library/ui/src/main/java/com/google/android/exoplayer2/ui/PlayerControlView.java:731-777 | the window loop yields exactly the markers of the reference definition (end-of-source groups resolved to the period end and dropped when that is unknown, groups outside `[0, window duration]` dropped, times `usToMs` of earlier windows plus in-window time), the scanned duration and current-window offset; it fails with a state assertion exactly in multi-window mode with an unknown window duration; the arrays never shrink |
| AdMarkers.ScanGroups | library/ui/src/main/java/com/google/android/exoplayer2/ui/PlayerControlView.java:753-773 | the ad-group loop of one period appends exactly that period's in-window markers |
| AdMarkers.ScanPeriods | library/ui/src/main/java/com/google/android/exoplayer2/ui/PlayerControlView.java:750-774 | the period loop of one window appends exactly that window's markers, in period order |
| AdMarkers.MarkerBuffer.Push | library/ui/src/main/java/com/google/android/exoplayer2/ui/PlayerControlView.java:764-771 | a full buffer grows from 0 to 1 and otherwise doubles; the new marker is appended and earlier ones are kept |
| AdMarkers.SetExtraAdGroupMarkers | library/ui/src/main/java/com/google/android/exoplayer2/ui/PlayerControlView.java:428-439 | null times mean no extras; missing played flags throw; mismatched lengths fail the argument check; arrays of equal length are accepted and stored as the extra markers, times and played flags as given |
| AdMarkers.MergeExtras | library/ui/src/main/java/com/google/android/exoplayer2/ui/PlayerControlView.java:781-790 | the extras land right after the scanned markers, the count becomes scanned + extras, and the arrays grow only to the total |
| AdMarkers.MergeNoExtrasIsScanAlone | library/ui/src/main/java/com/google/android/exoplayer2/ui/PlayerControlView.java:781-790 | with no extras the time bar receives the scanned arrays unchanged |
| AdMarkers.PeriodsMarkersInWindow | library/ui/src/main/java/com/google/android/exoplayer2/ui/PlayerControlView.java:750-774 | every marker of a window lies between the window's start and end on the time bar |
| AdMarkers.GroupsMarkersInWindow | library/ui/src/main/java/com/google/android/exoplayer2/ui/PlayerControlView.java:762-772 | every marker of a period lies between its window's start and end on the time bar |
| AdMarkers.UsToMsMonotone | library/ui/src/main/java/com/google/android/exoplayer2/ui/PlayerControlView.java:769-769 | `usToMs` preserves order on non-negative times |
| AdMarkers.TotalDurationPrefix | library/ui/src/main/java/com/google/android/exoplayer2/ui/PlayerControlView.java:775-775 | with non-negative durations the summed duration of a prefix of windows is between 0 and the total |
| AdMarkers.WindowsMarkersWithinTimeline | library/ui/src/main/java/com/google/android/exoplayer2/ui/PlayerControlView.java:737-778 | in multi-window mode every marker lies within `[0, duration]` of the whole time bar |
| TimeBar.CanShowMultiWindowTimeBar | library/ui/src/main/java/com/google/android/exoplayer2/ui/PlayerControlView.java:1216-1227 | true exactly when there are at most 100 windows and none has an unknown duration |
| TimeBar.TimeBarMode | library/ui/src/main/java/com/google/android/exoplayer2/ui/PlayerControlView.java:714-720 | with a player the mode is multi-window exactly when requested and eligible (without one it is kept), and a mode chosen this way never makes the scan's state assertion fail |
| TimeBar.Locate | library/ui/src/main/java/com/google/android/exoplayer2/ui/PlayerControlView.java:945-956 | the window walk stops in the first window the remaining position falls short of (every earlier window is passed, `PassesWindows`), having subtracted the earlier windows' durations, or clamps to the end of the last window |
| TimeBar.PassesWindowsOffsets | library/ui/src/main/java/com/google/android/exoplayer2/ui/PlayerControlView.java:945-956 | passing every window from `i` to `k` is the same as the position reaching past each window's end, counted from the windows' summed durations |
| TimeBar.SeekToTimeBarPosition | library/ui/src/main/java/com/google/android/exoplayer2/ui/PlayerControlView.java:939-961 | outside multi-window mode (or on an empty timeline) the position is taken in the current window; otherwise the walk from the first window passes every window before the target (`PassesWindows`) and either lands in the target with the earlier windows' summed durations subtracted and short of its duration, or clamps to the end of the last window |
| TimeBar.PrefixMsMonotone | library/ui/src/main/java/com/google/android/exoplayer2/ui/PlayerControlView.java:945-956 | with positive durations the windows' summed milliseconds grow by at least one per window |
| TimeBar.PrefixMsNonDecreasing | library/ui/src/main/java/com/google/android/exoplayer2/ui/PlayerControlView.java:945-956 | with non-negative durations (zero-length windows allowed) the windows' summed milliseconds never decrease |
| TimeBar.LocateRoundTrip | library/ui/src/main/java/com/google/android/exoplayer2/ui/PlayerControlView.java:939-961 | with no negative durations (zero-length windows allowed), the time-bar position of position q of window w seeks back to (w, q) |
| TimeBar.LocatePastEnd | library/ui/src/main/java/com/google/android/exoplayer2/ui/PlayerControlView.java:949-952 | with no negative durations, a position past the whole timeline seeks to the end of the last window |
| TimeBar.SeekPastTimelineEnd | library/ui/src/main/java/com/google/android/exoplayer2/ui/PlayerControlView.java:939-961 | in multi-window mode, a time-bar position at or past the end of the whole timeline seeks to the end of the last window |
| TimeBar.ScanOffsetIsPrefixMs | library/ui/src/main/java/com/google/android/exoplayer2/ui/PlayerControlView.java:741-775 | for whole-millisecond durations the scan's offset equals the summed millisecond durations the seek subtracts |
| TimeBar.TimeBarRoundTrip | library/ui/src/main/java/com/google/android/exoplayer2/ui/PlayerControlView.java:939-961 | in multi-window mode, the time-bar position shown for content position q seeks back to the current window at q |
| TimeBar.OffsetDriftExample | library/ui/src/main/java/com/google/android/exoplayer2/ui/PlayerControlView.java:741-956 | with sub-millisecond window durations the displayed offset and the seek walk disagree by a millisecond |
| PollDelay.UpdatePeriodMs | library/ui/src/main/java/com/google/android/exoplayer2/ui/PlayerControlView.java:841-841 | the media-time update period is 1000/k where k is `max(1, Math.round(1 / speed))`: k is 1 when `1/speed < 1.5`, else the k with `k - 0.5 <= 1/speed < k + 0.5`; so it lies between 100 and 1000 ms |
| PollDelay.NextPollDelay | library/ui/src/main/java/com/google/android/exoplayer2/ui/PlayerControlView.java:831-855 | a poll is posted exactly when there is a player that is neither idle nor ended; it is 1000 ms when not playing or at speed at most 0.1, 200 ms above speed 5, the band delay (media time to the next boundary, converted at the speed) in between, and always positive |
| PollDelay.MediaTimeDelayAligned | library/ui/src/main/java/com/google/android/exoplayer2/ui/PlayerControlView.java:842-845 | for a non-negative position the media delay lands on a period boundary and lies in `[period/5, period + period/5)` |
| PollDelay.MediaTimeDelayLowerBound | library/ui/src/main/java/com/google/android/exoplayer2/ui/PlayerControlView.java:842-845 | for any position the media delay is at least a fifth of a period |
| PollDelay.BandDelayPositive | library/ui/src/main/java/com/google/android/exoplayer2/ui/PlayerControlView.java:840-847 | between speeds 0.1 and 5 the real-time delay is at least 4 ms |
| PollDelay.RealTimeDelayBounds | library/ui/src/main/java/com/google/android/exoplayer2/ui/PlayerControlView.java:846-847 | the real-time delay is the whole number of milliseconds the media delay lasts at the playback speed: `delay <= d / speed < delay + 1` |
| PollDelay.BandDelayTracksMediaTime | library/ui/src/main/java/com/google/android/exoplayer2/ui/PlayerControlView.java:840-847 | while playing between speeds 0.1 and 5, the posted delay is the media time to the chosen boundary divided by the speed, truncated: `delay <= d / speed < delay + 1` |
| PollDelay.NormalSpeedFromStart | library/ui/src/main/java/com/google/android/exoplayer2/ui/PlayerControlView.java:836-847 | at speed 1 from position 0 the next poll comes after exactly one second |
| PollDelay.DoubleSpeedExample | library/ui/src/main/java/com/google/android/exoplayer2/ui/PlayerControlView.java:836-847 | at speed 2 from position 900 the period stays 1000 ms (`Math.round(0.5)` is 1), the delay is bumped to 1100 ms of media time and the poll comes after 550 ms |
| PollDelay.QuarterSpeedExample | library/ui/src/main/java/com/google/android/exoplayer2/ui/PlayerControlView.java:836-847 | at speed 0.25 from position 900 the period is 250 ms and the poll comes after 400 ms |
| Epg.FirstOnAir | library/ui/src/main/java/com/google/android/exoplayer2/ui/PlayerControlView.java:799-807 | the first guide entry strictly on air at the position, with none on air before it, or none at all |
| Epg.Rebase | library/ui/src/main/java/com/google/android/exoplayer2/ui/PlayerControlView.java:794-817 | with no entries nothing changes and the name is hidden; otherwise the first entry on air sets the duration to its length and shifts the position back by its start; with none on air the duration is kept and the position is shifted by the last entry's start |
| Epg.TwoProgrammesExample | library/ui/src/main/java/com/google/android/exoplayer2/ui/PlayerControlView.java:794-817 | two one-minute programmes: at time-bar second 70 the second is on air |
| Epg.BoundaryExample | library/ui/src/main/java/com/google/android/exoplayer2/ui/PlayerControlView.java:794-817 | at a programme boundary no entry is on air |
| Progress.UpdateProgress | library/ui/src/main/java/com/google/android/exoplayer2/ui/PlayerControlView.java:722-855 | nothing is done exactly when hidden or detached; without a player it shows zeros, or throws when guide entries exist; with one it fails exactly when the scan does and otherwise updates, showing scan + extra markers, buffered = offset + content buffered, the guide-rebased position and duration, and polling with the delay of the rebased position |
| Visibility.Initial | library/ui/src/main/java/com/google/android/exoplayer2/ui/PlayerControlView.java:275-277 | a new view has the default timeout, no deadline and nothing pending, which satisfies the scheduling invariant |
| Visibility.RefreshProgress | library/ui/src/main/java/com/google/android/exoplayer2/ui/PlayerControlView.java:831-855 | a visible attached view replaces its pending poll by at most one; otherwise nothing changes; the timeout, deadline, pending hide and notices are untouched; the invariant is kept |
| Visibility.HideAfterTimeout | library/ui/src/main/java/com/google/android/exoplayer2/ui/PlayerControlView.java:603-613 | the pending hide is cancelled; the deadline is now + timeout exactly when the timeout is positive, and a hide is posted only while attached |
| Visibility.Show | library/ui/src/main/java/com/google/android/exoplayer2/ui/PlayerControlView.java:572-582 | the view ends visible and keeps its timeout; a hidden view reports the change once, refreshes its progress (a poll is posted when attached and the player is active) and then re-arms the hide; a visible one only re-arms the hide |
| Visibility.Hide | library/ui/src/main/java/com/google/android/exoplayer2/ui/PlayerControlView.java:586-596 | a visible view ends hidden, reports once, and loses both callbacks and its deadline; a hidden one is unchanged; the timeout is kept |
| Visibility.SetShowTimeout | library/ui/src/main/java/com/google/android/exoplayer2/ui/PlayerControlView.java:513-519 | the new timeout re-arms the hide only when visible |
| Visibility.Attach | library/ui/src/main/java/com/google/android/exoplayer2/ui/PlayerControlView.java:964-978 | a deadline that has passed hides at once (reporting it once if the view was visible); a future one is posted for its remainder; with none a visible view arms a fresh timeout and posts its hide; a view left visible has its progress poll refreshed; the timeout is kept; the invariant holds after attaching a detached view |
| Visibility.Detach | library/ui/src/main/java/com/google/android/exoplayer2/ui/PlayerControlView.java:981-986 | both callbacks are cancelled; the deadline, timeout, visibility and notices are kept |
| Visibility.Touch | library/ui/src/main/java/com/google/android/exoplayer2/ui/PlayerControlView.java:989-996 | a press cancels the pending hide and a release re-arms it |
| Visibility.HideFires | library/ui/src/main/java/com/google/android/exoplayer2/ui/PlayerControlView.java:586-596 | the pending hide runs `hide` and leaves no hide pending |
| Visibility.PollFires | library/ui/src/main/java/com/google/android/exoplayer2/ui/PlayerControlView.java:831-855 | the pending poll runs the progress update, which re-posts at most one |
| Visibility.ShowTwice | library/ui/src/main/java/com/google/android/exoplayer2/ui/PlayerControlView.java:572-613 | showing twice is showing once at the later time |
| Visibility.HideTwice | library/ui/src/main/java/com/google/android/exoplayer2/ui/PlayerControlView.java:586-596 | hide is idempotent |
| Visibility.DetachAttachResumes | library/ui/src/main/java/com/google/android/exoplayer2/ui/PlayerControlView.java:964-986 | detach then attach before the deadline resumes the same single hide; after it, the controls are hidden at once |
| Visibility.DragKeepsControls | library/ui/src/main/java/com/google/android/exoplayer2/ui/PlayerControlView.java:989-996 | the controls cannot time out between a press and its release, and the release arms a full timeout |
| Visibility.ShownViewTimesOut | library/ui/src/main/java/com/google/android/exoplayer2/ui/PlayerControlView.java:572-613 | an attached view that is shown and left alone is hidden by its own timer, leaving nothing pending |
| SeekText.FieldsOf | library/ui/src/main/java/com/google/android/exoplayer2/ui/PlayerControlView.java:1062-1064 | hours, minutes mod 60 and seconds mod 60 of the magnitude add up to its whole seconds |
| SeekText.Format | library/ui/src/main/java/com/google/android/exoplayer2/ui/PlayerControlView.java:1057-1072 | the label starts with `+ ` for a non-negative delta (zero included), else `- ` |
| SeekText.Decimal | library/ui/src/main/java/com/google/android/exoplayer2/ui/PlayerControlView.java:1066-1068 | `%d` of a non-negative number is non-empty digits with no leading zero |
| SeekText.ParseFormat | library/ui/src/main/java/com/google/android/exoplayer2/ui/PlayerControlView.java:1057-1072 | the label parses back to its sign, hours, minutes and seconds |
| SeekText.FormatDeterminesSeconds | library/ui/src/main/java/com/google/android/exoplayer2/ui/PlayerControlView.java:1057-1072 | equal labels mean equal signs and equal whole seconds of magnitude |
| SeekText.RewindLabelExample | library/ui/src/main/java/com/google/android/exoplayer2/ui/PlayerControlView.java:1057-1072 | 90 s back reads `- 0:01:30` |
| SeekText.ZeroLabelExample | library/ui/src/main/java/com/google/android/exoplayer2/ui/PlayerControlView.java:1057-1072 | an empty delta reads `+ 0:00:00` |
| SeekText.HourLabelExample | library/ui/src/main/java/com/google/android/exoplayer2/ui/PlayerControlView.java:1057-1072 | 1 h 2 min 3 s forward reads `+ 1:02:03` |
| SeekAccumulator.Nudge | library/ui/src/main/java/com/google/android/exoplayer2/ui/PlayerControlView.java:1049-1080 | the delta changes by the step, one flush is pending a quiet 2 s later, and the label shows the new delta |
| SeekAccumulator.Forward | library/ui/src/main/java/com/google/android/exoplayer2/ui/PlayerControlView.java:1049-1055 | `forward(v)` adds v and reschedules the single flush |
| SeekAccumulator.Rewind | library/ui/src/main/java/com/google/android/exoplayer2/ui/PlayerControlView.java:1074-1080 | `rewind(v)` subtracts v and reschedules the single flush |
| SeekAccumulator.Flush | library/ui/src/main/java/com/google/android/exoplayer2/ui/PlayerControlView.java:1026-1046 | with no known duration the delta goes to the listener if set; otherwise a non-zero delta seeks in the current window, clamped to the duration going forward and to 0 going back; afterwards the delta is 0 and the label cleared; no player throws |
| SeekAccumulator.FlushFires | library/ui/src/main/java/com/google/android/exoplayer2/ui/PlayerControlView.java:1026-1046 | the delivered flush leaves the accumulator at rest |
| SeekAccumulator.FlushStaysInRange | library/ui/src/main/java/com/google/android/exoplayer2/ui/PlayerControlView.java:1031-1038 | from a position inside the window the flush seeks inside it, in the delta's direction, exactly by the delta when that fits |
| SeekAccumulator.NudgesCoalesce | library/ui/src/main/java/com/google/android/exoplayer2/ui/PlayerControlView.java:1049-1080 | any burst of nudges leaves one flush, 2 s after the last, carrying the sum of their deltas |
| SeekAccumulator.ThreeNudgesExample | library/ui/src/main/java/com/google/android/exoplayer2/ui/PlayerControlView.java:1024-1080 | three 10 s nudges then the flush seek 30 s ahead once |
| MediaKeys.DispatchMediaKeyEvent | library/ui/src/main/java/com/google/android/exoplayer2/ui/PlayerControlView.java:1089-1166 | a key is consumed exactly when there is a player, the key is in the table for the current visibility and it is a release; a consumed key leaves the controls exactly as one `show()` does (reported once, hide re-armed); a refused one changes nothing |
| MediaKeys.DispatchKeyEvent | library/ui/src/main/java/com/google/android/exoplayer2/ui/PlayerControlView.java:999-1005 | a key consumed by the media handler or the framework leaves the controls exactly as one `show()` does, keeping the media handler's pending seek and play command; an unconsumed key changes nothing |
| MediaKeys.ShowView | library/ui/src/main/java/com/google/android/exoplayer2/ui/PlayerControlView.java:572-582 | showing keeps the pending seek and the invariants |
| MediaKeys.HiddenTableIsVisibleWithoutPageKeys | library/ui/src/main/java/com/google/android/exoplayer2/ui/PlayerControlView.java:1176-1207 | the hidden table is the visible one without the page keys |
| MediaKeys.KeyFollowsTables | library/ui/src/main/java/com/google/android/exoplayer2/ui/PlayerControlView.java:1089-1166 | a consumed key nudges by its step when the controls were visible or it is a page key, else not at all, and sends the play table's playWhenReady |
| MediaKeys.FirstPressWakes | library/ui/src/main/java/com/google/android/exoplayer2/ui/PlayerControlView.java:1096-1100 | from hidden controls the first fast-forward only shows them and the second nudges a minute |
| Navigation.RewindTarget | library/ui/src/main/java/com/google/android/exoplayer2/ui/PlayerControlView.java:907-912 | a positive step seeks back by it in the current window, not before 0 |
| Navigation.FastForwardTarget | library/ui/src/main/java/com/google/android/exoplayer2/ui/PlayerControlView.java:914-924 | a positive step seeks ahead by it in the current window, not past a known duration |
| Navigation.PreviousTarget | library/ui/src/main/java/com/google/android/exoplayer2/ui/PlayerControlView.java:876-891 | nothing on an empty timeline or during an ad; the previous window when it exists and the position is within 3 s or the window is live and unseekable; else the current window's start |
| Navigation.NextTarget | library/ui/src/main/java/com/google/android/exoplayer2/ui/PlayerControlView.java:893-905 | there is a target exactly when the timeline is non-empty, no ad plays, and there is a next window or the current window is live; it is the next window, else the current live window, at its default position |
| Navigation.NavigationButtons | library/ui/src/main/java/com/google/android/exoplayer2/ui/PlayerControlView.java:642-663 | only a visible attached view updates; with no usable timeline all buttons are off; otherwise previous is on iff the window is seekable, not live, or has a previous window, next iff next seeks somewhere, fast-forward and rewind iff their step is positive and the window is seekable; the time bar is always disabled |
| Navigation.ButtonsMatchTargets | library/ui/src/main/java/com/google/android/exoplayer2/ui/PlayerControlView.java:642-663 | the next button is enabled exactly when next seeks somewhere; enabled previous, fast-forward and rewind buttons always seek |
| Navigation.StepsStayInWindow | library/ui/src/main/java/com/google/android/exoplayer2/ui/PlayerControlView.java:907-924 | from inside a window of known duration, rewind and fast-forward stay inside it, each moving its way |
| Navigation.RepeatModeToDispatch | library/ui/src/main/java/com/google/android/exoplayer2/ui/PlayerControlView.java:535-551 | for toggle modes 0..3 a mode is dispatched exactly when the current one is not allowed; the dispatched mode differs from the current one, is allowed, and is off only when no repeat mode is allowed |
| Navigation.RepeatModeAllowedAfterToggle | library/ui/src/main/java/com/google/android/exoplayer2/ui/PlayerControlView.java:535-551 | for every toggle-mode combination the player's repeat mode afterwards is allowed, and one already allowed is left alone |

## Notes on the source's behaviour

- Poll delay at double speed: `Math.round(1 / 2f)` is 1, so the period is
  1000 ms. From position 900 the 100 ms left are under a fifth of a period, so
  they are bumped to 1100 ms of media time, and the poll comes after 550 ms
  (`PollDelay.DoubleSpeedExample`).
- Guide rebase: the position compared with the guide is the time-bar
  position, which starts at 0. In a guide starting at second 100, the second
  programme (160-220) is on air at time-bar second 70
  (`Epg.TwoProgrammesExample`).
- Guide rebase: when no entry is on air, the name label stays visible and
  keeps its previous text. The position is still shifted by the last entry's
  start.

## Left out

- View plumbing: layout inflation, attributes, drawables, alpha, focus,
  content descriptions, and the text of the position and duration views
  (`Util.getStringForTime` is not part of this model). Null widgets are
  treated as present: the time bar always receives the markers, and the seek
  label is always there.
- The `Handler` and `postDelayed` machinery is replaced by lists of pending
  fire times, and a poll is a count. Message payloads are ignored, as
  `handleMessage` ignores them. The visibility listener is assumed set, so
  every change is recorded in `notices`.
- `controlDispatcher` refusing a seek (which triggers another progress
  update) and the play/pause dispatch itself are not modelled. Seeks and
  playWhenReady changes are returned as values.
- Float semantics: speed is an exact real, so IEEE rounding of `1 / speed`
  and `d / speed` is not modelled.
- Integers are unbounded: `long` overflow, including `Math.abs(Long.MIN_VALUE)`
  in the label, is not modelled.
- `String.format` uses ASCII digits: locale-specific digits are not modelled.
- The main-looper assertions in `setPlayer` are not modelled, and neither is
  the `updateAll` refresh it triggers (other than through `Show` and `Attach`).
- `ExoEpgItem` (library/ui/src/main/java/com/google/android/exoplayer2/ui/ExoEpgItem.java) is a bean with non-null start and finish. It is modelled
  as `Epg.EpgItem`. `setEpgChannelData` is a plain field assignment.
- A player that goes away between a nudge and its flush makes the flush throw
  (`SeekAccumulator.Flush` returns `NullPointer`); what the framework does next
  is not modelled.
- The scrub listener and click handlers are not modelled, apart from the
  targets they seek to (`Navigation`, `TimeBar.SeekToTimeBarPosition`).
- TimeBar.TimeBarRoundTrip: stated only for window durations in whole
  milliseconds, because otherwise the displayed offset (`usToMs` of summed
  microseconds) and the seek walk (summed `getDurationMs`) can differ by a
  millisecond (`TimeBar.OffsetDriftExample`).
- PollDelay.MediaTimeDelayAligned: stated for periods of at least 5 ms; every
  period `UpdatePeriodMs` yields is at least 100 ms.
- Visibility.Show, Visibility.Attach: the `updateAll` refresh inside `show` and
  `onAttachedToWindow` is reduced to its effect on the poll schedule
  (`RefreshProgress`, which both contracts state); the displayed values are
  `Progress.UpdateProgress`. The refresh is taken never to fail. In
  the source a failing `updateProgress` (the multi-window `checkState`, or guide
  entries without a player, see `Progress.UpdateProgress`) throws out of `show`
  before `hideAfterTimeout` runs; the visibility model does not follow that path.
- Visibility.Attach: the invariant is proved for attaching a detached view,
  the only way the framework calls it.

=== FILE: admarkers.dfy ===
/**
 * The ad-marker part of `updateProgress`: the scan of the current window (or
 * of every window, in multi-window mode) for ad groups that fall inside their
 * window, stored in two parallel growable arrays, followed by the extra
 * markers supplied through `setExtraAdGroupMarkers`.
 *
 * The declarative definitions (`GroupMarker` ... `ScanSpec`) say which
 * markers the time bar must show; the methods (`ScanGroups` ...
 * `ScanAdGroups`) follow the source's loops and buffer growth and are proved
 * to produce exactly those markers.
 */
module AdMarkers {
  import opened Common
  import opened Playback

  /** One time-bar marker: its time in milliseconds and whether its ad was played. */
  datatype Marker = Marker(timeMs: int, played: bool)

  // ---------------------------------------------------------------------------
  // Which markers the scan must produce
  // ---------------------------------------------------------------------------

  /**
   * The marker for ad group `g` of period `p` in a window of duration
   * `windowDurationUs` that starts `offsetUs` into the time bar, if any. An
   * end-of-source group sits at the period's end, and is dropped when that
   * end is unknown; a group outside `[0, windowDurationUs]` is dropped.
   */
  function GroupMarker(g: AdGroup, p: Period, windowDurationUs: int, offsetUs: int): Option<Marker>
  {
    if g.timeUs == TIME_END_OF_SOURCE && p.durationUs == TIME_UNSET then None
    else
      var inPeriodUs := if g.timeUs == TIME_END_OF_SOURCE then p.durationUs else g.timeUs;
      var inWindowUs := inPeriodUs + p.positionInWindowUs;
      if 0 <= inWindowUs <= windowDurationUs then Some(Marker(UsToMs(offsetUs + inWindowUs), g.played))
      else None
  }

  /** The markers of the ad groups `gs` of period `p`, in order. */
  function GroupsMarkers(gs: seq<AdGroup>, p: Period, windowDurationUs: int, offsetUs: int): seq<Marker>
  {
    if |gs| == 0 then []
    else
      GroupsMarkers(gs[..|gs| - 1], p, windowDurationUs, offsetUs)
      + (match GroupMarker(gs[|gs| - 1], p, windowDurationUs, offsetUs)
         case Some(m) => [m]
         case None => [])
  }

  /** The markers of the periods `ps` of one window, in order. */
  function PeriodsMarkers(ps: seq<Period>, windowDurationUs: int, offsetUs: int): seq<Marker>
  {
    if |ps| == 0 then []
    else
      var p := ps[|ps| - 1];
      PeriodsMarkers(ps[..|ps| - 1], windowDurationUs, offsetUs)
      + GroupsMarkers(p.adGroups, p, windowDurationUs, offsetUs)
  }

  /** The markers of the windows `ws` laid end to end from time 0, in order. */
  function WindowsMarkers(ws: seq<Window>): seq<Marker>
  {
    if |ws| == 0 then []
    else
      var w := ws[|ws| - 1];
      WindowsMarkers(ws[..|ws| - 1])
      + PeriodsMarkers(w.periods, w.durationUs, TotalDurationUs(ws[..|ws| - 1]))
  }

  /**
   * What the scan yields: the markers, the scanned duration in microseconds
   * (`durationUs` in the source) and the time-bar offset of the current
   * window in milliseconds (`currentWindowTimeBarOffsetMs`).
   */
  datatype Scan = Scan(markers: seq<Marker>, durationUs: int, currentOffsetMs: int)

  /**
   * The scan's expected outcome. An empty timeline yields nothing. In
   * single-window mode only the current window is scanned, and one of unknown
   * duration yields nothing. In multi-window mode every window is scanned
   * end to end, and one of unknown duration fails `checkState`.
   */
  function ScanSpec(t: Timeline, current: int, multi: bool): Result<Scan>
    requires t.IsEmpty() || 0 <= current < |t.windows|
  {
    if t.IsEmpty() then Ok(Scan([], 0, 0))
    else if !multi then
      var w := t.windows[current];
      if w.durationUs == TIME_UNSET then Ok(Scan([], 0, 0))
      else Ok(Scan(PeriodsMarkers(w.periods, w.durationUs, 0), w.durationUs, 0))
    else if !AllDurationsKnown(t.windows) then Fail(IllegalState)
    else Ok(Scan(WindowsMarkers(t.windows), TotalDurationUs(t.windows),
                 UsToMs(TotalDurationUs(t.windows[..current]))))
  }

  // ---------------------------------------------------------------------------
  // The parallel arrays
  // ---------------------------------------------------------------------------

  /**
   * `adGroupTimesMs` / `playedAdGroups` and the number of leading entries in
   * use (`adGroupCount`). Entries past `count` are stale.
   */
  datatype MarkerBuffer = MarkerBuffer(times: seq<int>, played: seq<bool>, count: nat)
  {
    /** The two arrays have the same length, which bounds the count. */
    predicate Valid() { |times| == |played| && count <= |times| }

    function Capacity(): nat { |times| }

    /** The markers in use. */
    function Contents(): (ms: seq<Marker>)
      requires Valid()
      ensures |ms| == count
      ensures forall i :: 0 <= i < count ==> ms[i] == Marker(times[i], played[i])
    {
      seq(count, i requires 0 <= i < count <= |times| == |played| => Marker(times[i], played[i]))
    }

    /**
     * Stores `m` at index `count`. A full buffer first grows to length 1 when
     * empty and to twice its length otherwise (`Arrays.copyOf`, which pads
     * with 0 and false).
     */
    function Push(m: Marker): (r: MarkerBuffer)
      requires Valid()
      ensures r.Valid()
      ensures r.Contents() == Contents() + [m]
      ensures r.Capacity() == if count < Capacity() then Capacity()
                              else if Capacity() == 0 then 1 else 2 * Capacity()
    {
      var cap := if count < |times| then |times| else if |times| == 0 then 1 else 2 * |times|;
      var t := times + seq(cap - |times|, _ => 0);
      var p := played + seq(cap - |played|, _ => false);
      var r := MarkerBuffer(t[count := m.timeMs], p[count := m.played], count + 1);
      assert r.Contents() == Contents() + [m] by {
        forall i | 0 <= i < count + 1
          ensures r.Contents()[i] == (Contents() + [m])[i]
        {
        }
      }
      r
    }
  }

  // ---------------------------------------------------------------------------
  // The scan loops of `updateProgress`
  // ---------------------------------------------------------------------------

  /** The innermost loop: the ad groups of one period. */
  method ScanGroups(b: MarkerBuffer, p: Period, windowDurationUs: int, offsetUs: int)
    returns (r: MarkerBuffer)
    requires b.Valid()
    ensures r.Valid()
    ensures r.Contents() == b.Contents() + GroupsMarkers(p.adGroups, p, windowDurationUs, offsetUs)
    ensures r.Capacity() >= b.Capacity()
  {
    var gs := p.adGroups;
    r := b;
    var i := 0;
    while i < |gs|
      invariant 0 <= i <= |gs|
      invariant r.Valid()
      invariant r.Contents() == b.Contents() + GroupsMarkers(gs[..i], p, windowDurationUs, offsetUs)
      invariant r.Capacity() >= b.Capacity()
    {
      assert gs[..i + 1][..i] == gs[..i];
      var timeInPeriodUs := gs[i].timeUs;
      if timeInPeriodUs == TIME_END_OF_SOURCE && p.durationUs == TIME_UNSET {
        // Postrolls in periods of unknown duration get no marker.
      } else {
        if timeInPeriodUs == TIME_END_OF_SOURCE {
          timeInPeriodUs := p.durationUs;
        }
        var timeInWindowUs := timeInPeriodUs + p.positionInWindowUs;
        if timeInWindowUs >= 0 && timeInWindowUs <= windowDurationUs {
          r := r.Push(Marker(UsToMs(offsetUs + timeInWindowUs), gs[i].played));
        }
      }
      i := i + 1;
    }
    assert gs[..|gs|] == gs;
  }

  lemma PeriodsMarkersStep(ps: seq<Period>, j: int, windowDurationUs: int, offsetUs: int)
    requires 0 <= j < |ps|
    ensures PeriodsMarkers(ps[..j + 1], windowDurationUs, offsetUs)
            == PeriodsMarkers(ps[..j], windowDurationUs, offsetUs)
               + GroupsMarkers(ps[j].adGroups, ps[j], windowDurationUs, offsetUs)
  {
    assert ps[..j + 1][..j] == ps[..j];
  }

  /** The middle loop: the periods of one window. */
  method ScanPeriods(b: MarkerBuffer, ps: seq<Period>, windowDurationUs: int, offsetUs: int)
    returns (r: MarkerBuffer)
    requires b.Valid()
    ensures r.Valid()
    ensures r.Contents() == b.Contents() + PeriodsMarkers(ps, windowDurationUs, offsetUs)
    ensures r.Capacity() >= b.Capacity()
  {
    r := b;
    var j := 0;
    while j < |ps|
      invariant 0 <= j <= |ps|
      invariant r.Valid()
      invariant r.Contents() == b.Contents() + PeriodsMarkers(ps[..j], windowDurationUs, offsetUs)
      invariant r.Capacity() >= b.Capacity()
    {
      PeriodsMarkersStep(ps, j, windowDurationUs, offsetUs);
      ghost var before := r.Contents();
      r := ScanGroups(r, ps[j], windowDurationUs, offsetUs);
      assert r.Contents() == before + GroupsMarkers(ps[j].adGroups, ps[j], windowDurationUs, offsetUs);
      j := j + 1;
    }
    assert ps[..|ps|] == ps;
  }

  lemma WindowsMarkersStep(ws: seq<Window>, i: int)
    requires 0 <= i < |ws|
    ensures WindowsMarkers(ws[..i + 1])
            == WindowsMarkers(ws[..i]) + PeriodsMarkers(ws[i].periods, ws[i].durationUs, TotalDurationUs(ws[..i]))
    ensures TotalDurationUs(ws[..i + 1]) == TotalDurationUs(ws[..i]) + ws[i].durationUs
    ensures AllDurationsKnown(ws[..i + 1]) <==> AllDurationsKnown(ws[..i]) && ws[i].durationUs != TIME_UNSET
  {
    assert ws[..i + 1][..i] == ws[..i];
    assert ws[..i + 1][i] == ws[i];
  }

  /** The arrays and numbers `updateProgress` has after its window loop. */
  datatype ScanOutcome = ScanOutcome(buffer: MarkerBuffer, durationUs: int, currentOffsetMs: int)

  /**
   * The window loop of `updateProgress`, writing into the arrays left by the
   * previous call (`previous`) from index 0. It produces exactly the markers,
   * duration and offset of `ScanSpec`, fails exactly when `ScanSpec` does,
   * and never shrinks the arrays.
   */
  method ScanAdGroups(t: Timeline, current: int, multi: bool, previous: MarkerBuffer)
    returns (r: Result<ScanOutcome>)
    requires previous.Valid()
    requires t.IsEmpty() || 0 <= current < |t.windows|
    ensures r.Ok? <==> ScanSpec(t, current, multi).Ok?
    ensures r.Ok? ==> r.value.buffer.Valid()
    ensures r.Ok? ==> r.value.buffer.Contents() == ScanSpec(t, current, multi).value.markers
    ensures r.Ok? ==> r.value.durationUs == ScanSpec(t, current, multi).value.durationUs
    ensures r.Ok? ==> r.value.currentOffsetMs == ScanSpec(t, current, multi).value.currentOffsetMs
    ensures r.Ok? ==> r.value.buffer.Capacity() >= previous.Capacity()
    ensures r.Fail? ==> r.fault == IllegalState
  {
    var buf := MarkerBuffer(previous.times, previous.played, 0);
    assert buf.Contents() == [];
    var ws := t.windows;
    if t.IsEmpty() {
      return Ok(ScanOutcome(buf, 0, 0));
    }
    if !multi {
      // The loop runs for the current window only, whose offset is usToMs(0).
      var w := ws[current];
      if w.durationUs == TIME_UNSET {
        return Ok(ScanOutcome(buf, 0, 0));
      }
      buf := ScanPeriods(buf, w.periods, w.durationUs, 0);
      return Ok(ScanOutcome(buf, w.durationUs, UsToMs(0)));
    }
    var durationUs := 0;
    var offsetMs := 0;
    var i := 0;
    while i < |ws|
      invariant 0 <= i <= |ws|
      invariant AllDurationsKnown(ws[..i])
      invariant durationUs == TotalDurationUs(ws[..i])
      invariant buf.Valid()
      invariant buf.Contents() == WindowsMarkers(ws[..i])
      invariant buf.Capacity() >= previous.Capacity()
      invariant i > current ==> offsetMs == UsToMs(TotalDurationUs(ws[..current]))
    {
      WindowsMarkersStep(ws, i);
      if i == current {
        offsetMs := UsToMs(durationUs);
      }
      var w := ws[i];
      if w.durationUs == TIME_UNSET {
        // Assertions.checkState(!multiWindowTimeBar)
        assert !AllDurationsKnown(ws);
        return Fail(IllegalState);
      }
      buf := ScanPeriods(buf, w.periods, w.durationUs, durationUs);
      durationUs := durationUs + w.durationUs;
      i := i + 1;
    }
    assert ws[..|ws|] == ws;
    return Ok(ScanOutcome(buf, durationUs, offsetMs));
  }

  // ---------------------------------------------------------------------------
  // Extra markers
  // ---------------------------------------------------------------------------

  /** `extraAdGroupTimesMs` / `extraPlayedAdGroups`. */
  datatype ExtraMarkers = ExtraMarkers(times: seq<int>, played: seq<bool>)
  {
    predicate Valid() { |times| == |played| }

    function Markers(): (ms: seq<Marker>)
      requires Valid()
      ensures |ms| == |times|
      ensures forall i :: 0 <= i < |times| ==> ms[i] == Marker(times[i], played[i])
    {
      seq(|times|, i requires 0 <= i < |times| == |played| => Marker(times[i], played[i]))
    }
  }

  /** No extra markers: the initial value of the two fields. */
  const NoExtras: ExtraMarkers := ExtraMarkers([], [])

  /**
   * `setExtraAdGroupMarkers`: null times mean no extras; otherwise the played
   * flags must be present (their length is read) and of the same length.
   */
  function SetExtraAdGroupMarkers(times: Option<seq<int>>, played: Option<seq<bool>>): (r: Result<ExtraMarkers>)
    ensures times.None? ==> r == Ok(NoExtras)
    ensures times.Some? && played.None? ==> r == Fail(NullPointer)
    ensures times.Some? && played.Some? && |times.value| != |played.value| ==> r == Fail(IllegalArgument)
    ensures r.Ok? ==> r.value.Valid()
    ensures r.Ok? && times.Some? ==> r.value == ExtraMarkers(times.value, played.value)
    ensures times.Some? && played.Some? && |times.value| == |played.value| ==>
              r == Ok(ExtraMarkers(times.value, played.value))
  {
    if times.None? then Ok(NoExtras)
    else if played.None? then Fail(NullPointer)
    else if |times.value| != |played.value| then Fail(IllegalArgument)
    else Ok(ExtraMarkers(times.value, played.value))
  }

  /**
   * The tail of the ad-marker code in `updateProgress`: the arrays grow to the
   * total count if needed and the extras are copied after the scanned
   * markers. The resulting buffer is what `TimeBar.setAdGroupTimesMs` receives.
   */
  function MergeExtras(b: MarkerBuffer, extra: ExtraMarkers): (r: MarkerBuffer)
    requires b.Valid() && extra.Valid()
    ensures r.Valid()
    ensures r.count == b.count + |extra.times|
    ensures r.Contents() == b.Contents() + extra.Markers()
    ensures r.Capacity() == Max(b.Capacity(), b.count + |extra.times|)
  {
    var total := b.count + |extra.times|;
    var t := if total > |b.times| then b.times + seq(total - |b.times|, _ => 0) else b.times;
    var p := if total > |b.played| then b.played + seq(total - |b.played|, _ => false) else b.played;
    var r := MarkerBuffer(t[..b.count] + extra.times + t[total..], p[..b.count] + extra.played + p[total..], total);
    assert r.Contents() == b.Contents() + extra.Markers() by {
      forall i | 0 <= i < total
        ensures r.Contents()[i] == (b.Contents() + extra.Markers())[i]
      {
        if i < b.count {
        } else {
          assert r.times[i] == extra.times[i - b.count];
          assert r.played[i] == extra.played[i - b.count];
        }
      }
    }
    r
  }

  // ---------------------------------------------------------------------------
  // Properties
  // ---------------------------------------------------------------------------

  /** With no extra markers the time bar receives exactly the scanned arrays. */
  lemma MergeNoExtrasIsScanAlone(b: MarkerBuffer)
    requires b.Valid()
    ensures MergeExtras(b, NoExtras) == b
  {
    assert b.times[..b.count] + [] + b.times[b.count..] == b.times;
    assert b.played[..b.count] + [] + b.played[b.count..] == b.played;
  }

  /** Every marker of one window lies in `[offset, offset + window duration]`, in milliseconds. */
  lemma {:induction false} PeriodsMarkersInWindow(ps: seq<Period>, wd: int, off: int)
    requires 0 <= off && 0 <= wd
    ensures forall m :: m in PeriodsMarkers(ps, wd, off) ==> UsToMs(off) <= m.timeMs <= UsToMs(off + wd)
  {
    if |ps| > 0 {
      PeriodsMarkersInWindow(ps[..|ps| - 1], wd, off);
      var p := ps[|ps| - 1];
      GroupsMarkersInWindow(p.adGroups, p, wd, off);
    }
  }

  lemma {:induction false} GroupsMarkersInWindow(gs: seq<AdGroup>, p: Period, wd: int, off: int)
    requires 0 <= off && 0 <= wd
    ensures forall m :: m in GroupsMarkers(gs, p, wd, off) ==> UsToMs(off) <= m.timeMs <= UsToMs(off + wd)
  {
    if |gs| > 0 {
      GroupsMarkersInWindow(gs[..|gs| - 1], p, wd, off);
      match GroupMarker(gs[|gs| - 1], p, wd, off)
      case None =>
      case Some(m) =>
        var g := gs[|gs| - 1];
        var inPeriodUs := if g.timeUs == TIME_END_OF_SOURCE then p.durationUs else g.timeUs;
        var inWindowUs := inPeriodUs + p.positionInWindowUs;
        UsToMsMonotone(off, off + inWindowUs);
        UsToMsMonotone(off + inWindowUs, off + wd);
    }
  }

  /** `usToMs` is monotone on non-negative times. */
  lemma UsToMsMonotone(a: int, b: int)
    requires 0 <= a <= b
    ensures UsToMs(a) <= UsToMs(b)
  {
    assert TIME_UNSET < 0;
  }

  /** With non-negative durations, a prefix of the windows is no longer than the whole. */
  lemma {:induction false} TotalDurationPrefix(ws: seq<Window>, k: nat)
    requires k <= |ws|
    requires forall i :: 0 <= i < |ws| ==> ws[i].durationUs >= 0
    ensures 0 <= TotalDurationUs(ws[..k]) <= TotalDurationUs(ws)
  {
    if k < |ws| {
      var n := |ws| - 1;
      assert ws[..n][..k] == ws[..k];
      TotalDurationPrefix(ws[..n], k);
    } else {
      assert ws[..k] == ws;
      if k > 0 {
        TotalDurationPrefix(ws[..k - 1], k - 1);
        assert ws[..k - 1][..k - 1] == ws[..k - 1];
      }
    }
  }

  /**
   * In multi-window mode with non-negative durations, every scanned marker
   * lies within `[0, usToMs(total duration)]`, the range the time bar shows.
   */
  lemma {:induction false} WindowsMarkersWithinTimeline(ws: seq<Window>)
    requires forall i :: 0 <= i < |ws| ==> ws[i].durationUs >= 0
    ensures forall m :: m in WindowsMarkers(ws) ==> 0 <= m.timeMs <= UsToMs(TotalDurationUs(ws))
  {
    if |ws| > 0 {
      var n := |ws| - 1;
      var w := ws[n];
      WindowsMarkersWithinTimeline(ws[..n]);
      TotalDurationPrefix(ws, n);
      TotalDurationPrefix(ws[..n], n);
      assert ws[..n][..n] == ws[..n];
      var off := TotalDurationUs(ws[..n]);
      PeriodsMarkersInWindow(w.periods, w.durationUs, off);
      UsToMsMonotone(0, off);
      UsToMsMonotone(TotalDurationUs(ws[..n]), TotalDurationUs(ws));
    }
  }
}

=== FILE: common.dfy ===
/**
 * Shared vocabulary of the control-view model: optional values, the Java
 * exceptions the view can raise, the time sentinels of the player library,
 * and Java's truncating integer arithmetic on `long`.
 */
module Common {

  /** A value that may be absent (Java `null`, `C.TIME_UNSET`, `C.INDEX_UNSET`). */
  datatype Option<+T> = None | Some(value: T)

  /** The runtime exceptions the modelled code can throw. */
  datatype Fault =
    | IllegalState     // Assertions.checkState failed
    | IllegalArgument  // Assertions.checkArgument failed
    | NullPointer      // a null reference was dereferenced

  /** The outcome of an operation that may throw. */
  datatype Result<+T> = Ok(value: T) | Fail(fault: Fault)

  /** `C.TIME_UNSET` (Long.MIN_VALUE + 1): an unknown time or duration. */
  const TIME_UNSET: int := -0x7FFF_FFFF_FFFF_FFFF

  /** `C.TIME_END_OF_SOURCE` (Long.MIN_VALUE): an ad group placed at the end of its period. */
  const TIME_END_OF_SOURCE: int := -0x8000_0000_0000_0000

  /**
   * Java's `a / b` on `long` for a positive divisor (every division in the
   * modelled code has one): the quotient truncated toward zero.
   */
  function JavaDiv(a: int, b: int): (q: int)
    requires b > 0
    ensures a >= 0 ==> q == a / b
    ensures a >= 0 ==> 0 <= a - q * b < b
    ensures a < 0 ==> -b < a - q * b <= 0
  {
    if a >= 0 then a / b else -((-a) / b)
  }

  /** Java's `a % b` on `long` for a positive divisor: the remainder takes the sign of the dividend. */
  function JavaRem(a: int, b: int): (r: int)
    requires b > 0
    ensures a == JavaDiv(a, b) * b + r
    ensures a >= 0 ==> 0 <= r < b && r == a % b
    ensures a < 0 ==> -b < r <= 0
  {
    a - JavaDiv(a, b) * b
  }

  /** `Math.abs` on unbounded integers (the Long.MIN_VALUE overflow is not modelled). */
  function JavaAbs(a: int): nat
  {
    if a < 0 then -a else a
  }

  /** `Math.round(float)`: the nearest integer, ties rounded up. */
  function Round(x: real): (n: int)
    ensures (n as real) - 0.5 <= x < (n as real) + 0.5
  {
    (x + 0.5).Floor
  }

  /** The Java cast `(long) x` of a floating-point value: truncation toward zero. */
  function TruncateToLong(x: real): (n: int)
    ensures x >= 0.0 ==> 0 <= n && (n as real) <= x < (n as real) + 1.0
    ensures x < 0.0 ==> n <= 0 && (n as real) - 1.0 < x <= (n as real)
  {
    if x >= 0.0 then x.Floor else -((-x).Floor)
  }

  /**
   * `C.usToMs`: microseconds to milliseconds, truncating, with `TIME_UNSET`
   * passed through unchanged.
   */
  function UsToMs(us: int): (ms: int)
    ensures us == TIME_UNSET ==> ms == TIME_UNSET
    ensures us != TIME_UNSET && us >= 0 ==> ms * 1000 <= us < ms * 1000 + 1000
    ensures us != TIME_UNSET && us < 0 ==> ms * 1000 - 1000 < us <= ms * 1000
  {
    if us == TIME_UNSET then us else JavaDiv(us, 1000)
  }

  function Min(a: int, b: int): int { if a <= b then a else b }

  function Max(a: int, b: int): int { if a >= b then a else b }
}

=== FILE: epg.dfy ===
/**
 * The program-guide (EPG) part of `updateProgress`: with guide entries
 * present, the entry on air at the time-bar position is looked up and the
 * displayed position and duration are rebased to it.
 */
module Epg {
  import opened Common

  /** `ExoEpgItem`: start and finish in seconds (never null when read) and a name. */
  datatype EpgItem = EpgItem(start: int, finish: int, name: string)

  /**
   * Entry `item` is on air at second `positionSec` of the time bar, whose
   * second 0 is guide time `delta`: strictly inside `(start, finish)`.
   */
  predicate OnAir(item: EpgItem, delta: int, positionSec: int)
  {
    item.start - delta < positionSec < item.finish - delta
  }

  /** The index of the first entry from `i` on that is on air, if any. */
  function FirstOnAir(items: seq<EpgItem>, delta: int, positionSec: int, i: nat): (k: Option<nat>)
    requires i <= |items|
    decreases |items| - i
    ensures k.Some? ==> i <= k.value < |items| && OnAir(items[k.value], delta, positionSec)
    ensures k.Some? ==> forall j :: i <= j < k.value ==> !OnAir(items[j], delta, positionSec)
    ensures k.None? ==> forall j :: i <= j < |items| ==> !OnAir(items[j], delta, positionSec)
  {
    if i == |items| then None
    else if OnAir(items[i], delta, positionSec) then Some(i)
    else FirstOnAir(items, delta, positionSec, i + 1)
  }

  /**
   * What the display shows after the guide step: position and duration in
   * milliseconds, whether the name label is visible, and the index of the
   * entry whose name it is given (None leaves the label's text as it was).
   */
  datatype EpgView = EpgView(positionMs: int, durationMs: int, nameShown: bool, current: Option<nat>)

  /**
   * The guide step. `positionMs` and `durationMs` are the time-bar values
   * computed so far and `currentPositionMs` is the player's current position.
   * `playedTime` is assigned before each entry's test, so with no entry on
   * air the position is still rebased, on the last entry's start.
   */
  function Rebase(items: seq<EpgItem>, positionMs: int, durationMs: int, currentPositionMs: int): (v: EpgView)
    ensures |items| == 0 ==> v == EpgView(positionMs, durationMs, false, None)
    ensures |items| > 0 ==> v.nameShown
    ensures |items| > 0 && v.current.Some? ==>
              var k := v.current.value;
              var delta := items[0].start;
              && k < |items|
              && OnAir(items[k], delta, JavaDiv(positionMs, 1000))
              && (forall j :: 0 <= j < k ==> !OnAir(items[j], delta, JavaDiv(positionMs, 1000)))
              && v.durationMs == (items[k].finish - items[k].start) * 1000
              && v.positionMs == currentPositionMs - (items[k].start - delta) * 1000
    ensures |items| > 0 && v.current.None? ==>
              var delta := items[0].start;
              && (forall j :: 0 <= j < |items| ==> !OnAir(items[j], delta, JavaDiv(positionMs, 1000)))
              && v.durationMs == durationMs
              && v.positionMs == currentPositionMs - (items[|items| - 1].start - delta) * 1000
  {
    if |items| == 0 then EpgView(positionMs, durationMs, false, None)
    else
      var delta := items[0].start;
      match FirstOnAir(items, delta, JavaDiv(positionMs, 1000), 0)
      case Some(k) =>
        var playedTime := items[k].start - delta;
        EpgView(currentPositionMs - playedTime * 1000, (items[k].finish - items[k].start) * 1000, true, Some(k))
      case None =>
        var playedTime := items[|items| - 1].start - delta;
        EpgView(currentPositionMs - playedTime * 1000, durationMs, true, None)
  }

  /**
   * Two programmes of a minute each, the guide starting at second 100: at
   * time-bar second 70 the second one is on air, the duration becomes one
   * minute and the position is shifted back by the first programme's minute.
   */
  lemma TwoProgrammesExample(currentPositionMs: int, durationMs: int)
    ensures var items := [EpgItem(100, 160, "A"), EpgItem(160, 220, "B")];
            Rebase(items, 70_000, durationMs, currentPositionMs)
            == EpgView(currentPositionMs - 60_000, 60_000, true, Some(1))
  {
    var items := [EpgItem(100, 160, "A"), EpgItem(160, 220, "B")];
    assert !OnAir(items[0], 100, 70);
    assert OnAir(items[1], 100, 70);
    assert FirstOnAir(items, 100, 70, 0) == Some(1);
  }

  /**
   * At a programme boundary (both bounds are strict) nothing is on air: the
   * duration is kept and the position is rebased on the last entry.
   */
  lemma BoundaryExample(currentPositionMs: int, durationMs: int)
    ensures var items := [EpgItem(100, 160, "A"), EpgItem(160, 220, "B")];
            Rebase(items, 60_000, durationMs, currentPositionMs)
            == EpgView(currentPositionMs - 60_000, durationMs, true, None)
  {
    var items := [EpgItem(100, 160, "A"), EpgItem(160, 220, "B")];
    assert FirstOnAir(items, 100, 60, 0) == None;
  }
}

=== FILE: mediakeys.dfy ===
/**
 * Key handling: the two-mode table of keys the controls consume
 * (`isHandledMediaKey`), the per-key actions of `dispatchMediaKeyEvent`
 * (nudge the pending seek, toggle or set playWhenReady, show the controls),
 * and `dispatchKeyEvent`, which shows the controls after any handled key.
 */
module MediaKeys {
  import opened Common
  import opened Playback
  import Visibility
  import SeekAccumulator

  /** Android `KeyEvent.KEYCODE_*` values. */
  const KEYCODE_DPAD_UP: int := 19
  const KEYCODE_DPAD_DOWN: int := 20
  const KEYCODE_DPAD_LEFT: int := 21
  const KEYCODE_DPAD_RIGHT: int := 22
  const KEYCODE_MENU: int := 82
  const KEYCODE_MEDIA_PLAY_PAUSE: int := 85
  const KEYCODE_MEDIA_NEXT: int := 87
  const KEYCODE_MEDIA_PREVIOUS: int := 88
  const KEYCODE_MEDIA_REWIND: int := 89
  const KEYCODE_MEDIA_FAST_FORWARD: int := 90
  const KEYCODE_PAGE_UP: int := 92
  const KEYCODE_PAGE_DOWN: int := 93
  const KEYCODE_MEDIA_PLAY: int := 126
  const KEYCODE_MEDIA_PAUSE: int := 127

  /** `KeyEvent.ACTION_DOWN` and `ACTION_UP`; anything else is `KeyOther`. */
  datatype KeyAction = KeyDown | KeyUp | KeyOther

  /** The part of the view that key handling reads and changes. */
  datatype View = View(controls: Visibility.Controls, acc: SeekAccumulator.Accumulator)
  {
    predicate Valid() { Visibility.Inv(controls) && SeekAccumulator.Inv(acc) }
  }

  /** `isHandledMediaKey`, as its two chains of comparisons. */
  function IsHandledMediaKey(visible: bool, keyCode: int): bool
  {
    if !visible then
      keyCode == KEYCODE_MEDIA_FAST_FORWARD
      || keyCode == KEYCODE_MEDIA_REWIND
      || keyCode == KEYCODE_MEDIA_PLAY_PAUSE
      || keyCode == KEYCODE_MEDIA_PLAY
      || keyCode == KEYCODE_MEDIA_PAUSE
      || keyCode == KEYCODE_DPAD_UP
      || keyCode == KEYCODE_DPAD_DOWN
      || keyCode == KEYCODE_DPAD_LEFT
      || keyCode == KEYCODE_DPAD_RIGHT
      || keyCode == KEYCODE_MENU
      || keyCode == KEYCODE_MEDIA_PREVIOUS
      || keyCode == KEYCODE_MEDIA_NEXT
    else
      keyCode == KEYCODE_MEDIA_FAST_FORWARD
      || keyCode == KEYCODE_MEDIA_REWIND
      || keyCode == KEYCODE_MEDIA_PLAY_PAUSE
      || keyCode == KEYCODE_MEDIA_PLAY
      || keyCode == KEYCODE_MEDIA_PAUSE
      || keyCode == KEYCODE_PAGE_DOWN
      || keyCode == KEYCODE_PAGE_UP
      || keyCode == KEYCODE_DPAD_UP
      || keyCode == KEYCODE_DPAD_DOWN
      || keyCode == KEYCODE_DPAD_LEFT
      || keyCode == KEYCODE_DPAD_RIGHT
      || keyCode == KEYCODE_MEDIA_PREVIOUS
      || keyCode == KEYCODE_MENU
      || keyCode == KEYCODE_MEDIA_NEXT
  }

  /** The page keys: handled only while the controls are visible; a hidden view leaves them unhandled. */
  predicate IsPageKey(keyCode: int)
  {
    keyCode == KEYCODE_PAGE_UP || keyCode == KEYCODE_PAGE_DOWN
  }

  /**
   * Reference table of the seek each key asks for: the signed step in
   * milliseconds, or None for a key that does not seek.
   */
  function SeekStep(keyCode: int): Option<int>
  {
    if keyCode == KEYCODE_DPAD_RIGHT then Some(SeekAccumulator.STEP_SHORT_MS)
    else if keyCode == KEYCODE_DPAD_LEFT then Some(-SeekAccumulator.STEP_SHORT_MS)
    else if keyCode == KEYCODE_DPAD_UP || keyCode == KEYCODE_MEDIA_FAST_FORWARD then Some(SeekAccumulator.STEP_MEDIUM_MS)
    else if keyCode == KEYCODE_DPAD_DOWN || keyCode == KEYCODE_MEDIA_REWIND then Some(-SeekAccumulator.STEP_MEDIUM_MS)
    else if keyCode == KEYCODE_PAGE_UP || keyCode == KEYCODE_MEDIA_NEXT then Some(SeekAccumulator.STEP_LONG_MS)
    else if keyCode == KEYCODE_PAGE_DOWN || keyCode == KEYCODE_MEDIA_PREVIOUS then Some(-SeekAccumulator.STEP_LONG_MS)
    else None
  }

  /** Reference table of the playWhenReady each key asks for, given the current one. */
  function PlayCommand(keyCode: int, playWhenReady: bool): Option<bool>
  {
    if keyCode == KEYCODE_MEDIA_PLAY_PAUSE || keyCode == KEYCODE_MENU then Some(!playWhenReady)
    else if keyCode == KEYCODE_MEDIA_PLAY then Some(true)
    else if keyCode == KEYCODE_MEDIA_PAUSE then Some(false)
    else None
  }

  /** `show()` applied to the view's controls. */
  function ShowView(v: View, now: int, poll: bool): (r: View)
    ensures r.controls.visible && r.acc == v.acc
    ensures v.Valid() ==> r.Valid()
  {
    v.(controls := Visibility.Show(v.controls, now, poll))
  }

  /** Showing the controls again at the same time changes nothing more. */
  lemma ShowIsIdempotent(c: Visibility.Controls, now: int, poll: bool)
    ensures var once := Visibility.Show(c, now, poll);
            Visibility.Show(once, now, poll) == once
            && Visibility.Show(Visibility.Show(once, now, poll), now, poll) == once
  {
    Visibility.ShowTwice(c, now, now, poll, poll);
  }

  /** `forward(value)` when `visible`, else nothing. */
  function ForwardIf(visible: bool, v: View, value: int, now: int): View
  {
    if visible then v.(acc := SeekAccumulator.Forward(v.acc, value, now)) else v
  }

  /** `rewind(value)` when `visible`, else nothing. */
  function RewindIf(visible: bool, v: View, value: int, now: int): View
  {
    if visible then v.(acc := SeekAccumulator.Rewind(v.acc, value, now)) else v
  }

  /** The result of a key: whether it was consumed, the view after it, and any playWhenReady sent to the player. */
  datatype KeyOutcome = KeyOutcome(handled: bool, view: View, playWhenReady: Option<bool>)

  /**
   * `dispatchMediaKeyEvent`: refused without a player, for a key outside the
   * current table, or for anything but a release. Otherwise each key's case
   * runs as written (most seek keys nudge only when the controls were
   * visible; the page keys show first and always nudge), and the controls
   * are shown once more at the end.
   */
  function DispatchMediaKeyEvent(v: View, player: Option<PlayerSnapshot>, keyCode: int, action: KeyAction,
                                 now: int, poll: bool): (r: KeyOutcome)
    ensures r.handled <==> player.Some? && IsHandledMediaKey(v.controls.visible, keyCode) && action == KeyUp
    ensures !r.handled ==> r.view == v && r.playWhenReady.None?
    ensures r.handled ==> r.view.controls.visible
    ensures r.handled ==> r.view.controls == Visibility.Show(v.controls, now, poll)
    ensures v.Valid() ==> r.view.Valid()
  {
    if player.None? || !IsHandledMediaKey(v.controls.visible, keyCode) || action != KeyUp then
      KeyOutcome(false, v, None)
    else
      var p := player.value;
      var visible := v.controls.visible;
      var s1 := SeekAccumulator.STEP_SHORT_MS;
      var s2 := SeekAccumulator.STEP_MEDIUM_MS;
      var s3 := SeekAccumulator.STEP_LONG_MS;
      var after: (View, Option<bool>) :=
        if keyCode == KEYCODE_MEDIA_FAST_FORWARD then (ShowView(ForwardIf(visible, v, s2, now), now, poll), None)
        else if keyCode == KEYCODE_MEDIA_REWIND then (ShowView(RewindIf(visible, v, s2, now), now, poll), None)
        else if keyCode == KEYCODE_DPAD_UP then (ShowView(ForwardIf(visible, v, s2, now), now, poll), None)
        else if keyCode == KEYCODE_DPAD_DOWN then (ShowView(RewindIf(visible, v, s2, now), now, poll), None)
        else if keyCode == KEYCODE_MEDIA_PLAY_PAUSE then (ShowView(v, now, poll), Some(!p.playWhenReady))
        else if keyCode == KEYCODE_MEDIA_PLAY then (ShowView(v, now, poll), Some(true))
        else if keyCode == KEYCODE_MEDIA_PAUSE then (ShowView(v, now, poll), Some(false))
        else if keyCode == KEYCODE_DPAD_LEFT then (ShowView(RewindIf(visible, v, s1, now), now, poll), None)
        else if keyCode == KEYCODE_DPAD_RIGHT then (ShowView(ForwardIf(visible, v, s1, now), now, poll), None)
        else if keyCode == KEYCODE_PAGE_DOWN then (RewindIf(true, ShowView(v, now, poll), s3, now), None)
        else if keyCode == KEYCODE_PAGE_UP then (ForwardIf(true, ShowView(v, now, poll), s3, now), None)
        else if keyCode == KEYCODE_MEDIA_PREVIOUS then (ShowView(RewindIf(visible, v, s3, now), now, poll), None)
        else if keyCode == KEYCODE_MEDIA_NEXT then (ShowView(ForwardIf(visible, v, s3, now), now, poll), None)
        else if keyCode == KEYCODE_MENU then (ShowView(v, now, poll), Some(!p.playWhenReady))
        else (v, None);
      ShowIsIdempotent(v.controls, now, poll);
      KeyOutcome(true, ShowView(after.0, now, poll), after.1)
  }

  /**
   * `dispatchKeyEvent`: a key the media handler refuses goes to the
   * framework (`superHandled` is its answer); a handled key shows the
   * controls.
   */
  function DispatchKeyEvent(v: View, player: Option<PlayerSnapshot>, keyCode: int, action: KeyAction,
                            superHandled: bool, now: int, poll: bool): (r: KeyOutcome)
    ensures var media := DispatchMediaKeyEvent(v, player, keyCode, action, now, poll);
            && (r.handled <==> media.handled || superHandled)
            && (media.handled ==> r.view.controls.visible && r.view.acc == media.view.acc
                                  && r.playWhenReady == media.playWhenReady)
            && (!media.handled && superHandled ==> r.view == ShowView(v, now, poll))
            && (!r.handled ==> r.view == v)
    ensures r.handled ==> r.view.controls == Visibility.Show(v.controls, now, poll)
    ensures v.Valid() ==> r.view.Valid()
  {
    ShowIsIdempotent(v.controls, now, poll);
    var media := DispatchMediaKeyEvent(v, player, keyCode, action, now, poll);
    var handled := media.handled || superHandled;
    if handled then KeyOutcome(true, ShowView(media.view, now, poll), media.playWhenReady)
    else KeyOutcome(false, media.view, None)
  }

  // ---------------------------------------------------------------------------
  // Properties
  // ---------------------------------------------------------------------------

  /**
   * The table for hidden controls is the visible one without the page keys:
   * hiding never adds a key, and the page keys are the only ones it removes.
   */
  lemma HiddenTableIsVisibleWithoutPageKeys(keyCode: int)
    ensures IsHandledMediaKey(false, keyCode) <==> IsHandledMediaKey(true, keyCode) && !IsPageKey(keyCode)
  {
  }

  /**
   * A handled key changes the pending seek by its table step when it is a
   * page key or the controls were visible, and leaves it alone otherwise;
   * it sends the player the playWhenReady of the play table.
   */
  lemma KeyFollowsTables(v: View, p: PlayerSnapshot, keyCode: int, now: int, poll: bool)
    requires IsHandledMediaKey(v.controls.visible, keyCode)
    ensures var r := DispatchMediaKeyEvent(v, Some(p), keyCode, KeyUp, now, poll);
            && r.handled
            && r.playWhenReady == PlayCommand(keyCode, p.playWhenReady)
            && (SeekStep(keyCode).Some? && (v.controls.visible || IsPageKey(keyCode)) ==>
                  && r.view.acc.addValue == v.acc.addValue + SeekStep(keyCode).value
                  && r.view.acc.pendingFlushes == [now + SeekAccumulator.QUIET_PERIOD_MS])
            && (SeekStep(keyCode).None? || !(v.controls.visible || IsPageKey(keyCode)) ==>
                  r.view.acc == v.acc)
  {
  }

  /**
   * From hidden controls and a pending seek at rest, the first fast-forward
   * press only brings the controls up and the second one nudges a minute.
   */
  lemma FirstPressWakes(v: View, p: PlayerSnapshot, t1: int, t2: int, poll: bool)
    requires !v.controls.visible && v.acc == SeekAccumulator.Idle
    ensures var first := DispatchMediaKeyEvent(v, Some(p), KEYCODE_MEDIA_FAST_FORWARD, KeyUp, t1, poll);
            var second := DispatchMediaKeyEvent(first.view, Some(p), KEYCODE_MEDIA_FAST_FORWARD, KeyUp, t2, poll);
            && first.view.controls.visible && first.view.acc == SeekAccumulator.Idle
            && second.view.acc.addValue == SeekAccumulator.STEP_MEDIUM_MS
  {
    KeyFollowsTables(v, p, KEYCODE_MEDIA_FAST_FORWARD, t1, poll);
    var first := DispatchMediaKeyEvent(v, Some(p), KEYCODE_MEDIA_FAST_FORWARD, KeyUp, t1, poll);
    KeyFollowsTables(first.view, p, KEYCODE_MEDIA_FAST_FORWARD, t2, poll);
  }
}

=== FILE: navigation.dfy ===
/**
 * The transport rules: the seek targets of the rewind, fast-forward,
 * previous and next buttons, which of those buttons `updateNavigation`
 * enables, and the repeat mode `setRepeatToggleModes` forces on the player.
 */
module Navigation {
  import opened Common
  import opened Playback
  import opened TimeBar

  /** `MAX_POSITION_FOR_SEEK_TO_PREVIOUS`. */
  const MAX_POSITION_FOR_SEEK_TO_PREVIOUS: int := 3000

  /** `rewind()`: `rewindMs` back in the current window, not before 0; nothing for a non-positive step. */
  function RewindTarget(p: PlayerSnapshot, rewindMs: int): (r: Option<SeekTarget>)
    ensures r.Some? <==> rewindMs > 0
    ensures r.Some? ==>
              && r.value.windowIndex == p.currentWindowIndex
              && r.value.positionMs >= 0
              && (r.value.positionMs == p.currentPositionMs - rewindMs
                  || (r.value.positionMs == 0 && p.currentPositionMs - rewindMs < 0))
  {
    if rewindMs <= 0 then None
    else Some(SeekTarget(p.currentWindowIndex, Max(p.currentPositionMs - rewindMs, 0)))
  }

  /**
   * `fastForward()`: `fastForwardMs` ahead in the current window, not past
   * the duration when that is known; nothing for a non-positive step.
   */
  function FastForwardTarget(p: PlayerSnapshot, fastForwardMs: int): (r: Option<SeekTarget>)
    ensures r.Some? <==> fastForwardMs > 0
    ensures r.Some? ==> r.value.windowIndex == p.currentWindowIndex
    ensures r.Some? && p.durationMs == TIME_UNSET ==> r.value.positionMs == p.currentPositionMs + fastForwardMs
    ensures r.Some? && p.durationMs != TIME_UNSET ==>
              && r.value.positionMs <= p.durationMs
              && (r.value.positionMs == p.currentPositionMs + fastForwardMs
                  || (r.value.positionMs == p.durationMs && p.currentPositionMs + fastForwardMs > p.durationMs))
  {
    if fastForwardMs <= 0 then None
    else
      var seekPositionMs := p.currentPositionMs + fastForwardMs;
      Some(SeekTarget(p.currentWindowIndex,
                      if p.durationMs != TIME_UNSET then Min(seekPositionMs, p.durationMs) else seekPositionMs))
  }

  /**
   * `previous()`: nothing on an empty timeline or during an ad; the start of
   * the previous window when there is one and the position is within the
   * first three seconds (or the window is live and unseekable); otherwise
   * the start of the current window.
   */
  function PreviousTarget(p: PlayerSnapshot): (r: Option<SeekTarget>)
    requires p.Valid()
    ensures r.None? <==> p.timeline.IsEmpty() || p.isPlayingAd
    ensures r.Some? ==>
              var w := p.timeline.windows[p.currentWindowIndex];
              var toPrevious := p.HasPrevious()
                && (p.currentPositionMs <= MAX_POSITION_FOR_SEEK_TO_PREVIOUS || (w.isDynamic && !w.isSeekable));
              if toPrevious then r.value == SeekTarget(p.previousWindowIndex.value, TIME_UNSET)
              else r.value == SeekTarget(p.currentWindowIndex, 0)
  {
    if p.timeline.IsEmpty() || p.isPlayingAd then None
    else
      var w := p.timeline.windows[p.currentWindowIndex];
      if p.previousWindowIndex.Some?
         && (p.currentPositionMs <= MAX_POSITION_FOR_SEEK_TO_PREVIOUS || (w.isDynamic && !w.isSeekable))
      then Some(SeekTarget(p.previousWindowIndex.value, TIME_UNSET))
      else Some(SeekTarget(p.currentWindowIndex, 0))
  }

  /**
   * `next()`: nothing on an empty timeline or during an ad; the default
   * position of the next window when there is one, else of the current
   * window when it is live; else nothing.
   */
  function NextTarget(p: PlayerSnapshot): (r: Option<SeekTarget>)
    requires p.Valid()
    ensures r.Some? <==> !p.timeline.IsEmpty() && !p.isPlayingAd
                         && (p.HasNext() || p.timeline.windows[p.currentWindowIndex].isDynamic)
    ensures r.Some? ==> r.value.positionMs == TIME_UNSET
    ensures r.Some? && p.HasNext() ==> r.value.windowIndex == p.nextWindowIndex.value
    ensures r.Some? && !p.HasNext() ==> r.value.windowIndex == p.currentWindowIndex
                                        && p.timeline.windows[p.currentWindowIndex].isDynamic
  {
    if p.timeline.IsEmpty() || p.isPlayingAd then None
    else if p.nextWindowIndex.Some? then Some(SeekTarget(p.nextWindowIndex.value, TIME_UNSET))
    else if p.timeline.windows[p.currentWindowIndex].isDynamic then Some(SeekTarget(p.currentWindowIndex, TIME_UNSET))
    else None
  }

  /** The enabled state `updateNavigation` gives each button; the time bar is always disabled. */
  datatype Buttons = Buttons(previous: bool, next: bool, fastForward: bool, rewind: bool, timeBar: bool)

  /** `updateNavigation`: None when the view is hidden or detached and nothing is updated. */
  function NavigationButtons(visible: bool, attached: bool, player: Option<PlayerSnapshot>,
                             fastForwardMs: int, rewindMs: int): (b: Option<Buttons>)
    requires player.Some? ==> player.value.Valid()
    ensures b.Some? <==> visible && attached
    ensures b.Some? ==> !b.value.timeBar
    ensures b.Some? && (player.None? || player.value.timeline.IsEmpty() || player.value.isPlayingAd) ==>
              b.value == Buttons(false, false, false, false, false)
    ensures b.Some? && player.Some? && !player.value.timeline.IsEmpty() && !player.value.isPlayingAd ==>
              var p := player.value;
              var w := p.timeline.windows[p.currentWindowIndex];
              && (b.value.previous <==> w.isSeekable || !w.isDynamic || p.HasPrevious())
              && (b.value.next <==> NextTarget(p).Some?)
              && (b.value.fastForward <==> fastForwardMs > 0 && w.isSeekable)
              && (b.value.rewind <==> rewindMs > 0 && w.isSeekable)
  {
    if !visible || !attached then None
    else if player.None? || player.value.timeline.IsEmpty() || player.value.isPlayingAd then
      Some(Buttons(false, false, false, false, false))
    else
      var p := player.value;
      var w := p.timeline.windows[p.currentWindowIndex];
      var isSeekable := w.isSeekable;
      Some(Buttons(isSeekable || !w.isDynamic || p.HasPrevious(),
                   w.isDynamic || p.HasNext(),
                   fastForwardMs > 0 && isSeekable,
                   rewindMs > 0 && isSeekable,
                   false))
  }

  /**
   * The next button is enabled exactly when pressing it seeks somewhere; an
   * enabled previous, fast-forward or rewind button always seeks too.
   */
  lemma ButtonsMatchTargets(p: PlayerSnapshot, fastForwardMs: int, rewindMs: int)
    requires p.Valid()
    ensures var b := NavigationButtons(true, true, Some(p), fastForwardMs, rewindMs).value;
            && (b.next <==> NextTarget(p).Some?)
            && (b.previous ==> PreviousTarget(p).Some?)
            && (b.fastForward ==> FastForwardTarget(p, fastForwardMs).Some?)
            && (b.rewind ==> RewindTarget(p, rewindMs).Some?)
  {
  }

  /**
   * From a position inside `[0, duration]` of a window of known duration,
   * rewind and fast-forward stay inside it, each moving in its direction.
   */
  lemma StepsStayInWindow(p: PlayerSnapshot, fastForwardMs: int, rewindMs: int)
    requires fastForwardMs > 0 && rewindMs > 0
    requires p.durationMs != TIME_UNSET && 0 <= p.currentPositionMs <= p.durationMs
    ensures var ff := FastForwardTarget(p, fastForwardMs).value.positionMs;
            var rw := RewindTarget(p, rewindMs).value.positionMs;
            && p.currentPositionMs <= ff <= p.durationMs
            && 0 <= rw <= p.currentPositionMs
  {
  }

  /**
   * `RepeatModeUtil.RepeatToggleModes` as flags: 1 allows repeat-one and 2
   * allows repeat-all; repeat-off is always allowed.
   */
  predicate ModeAllowed(mode: RepeatMode, toggleModes: int)
  {
    match mode
    case RepeatOff => true
    case RepeatOne => toggleModes % 2 == 1
    case RepeatAll => (toggleModes / 2) % 2 == 1
  }

  /**
   * `setRepeatToggleModes`: the repeat mode dispatched to the player, if
   * any, so that its current mode is one the new toggle modes allow: off
   * when none are, one instead of all and all instead of one.
   */
  function RepeatModeToDispatch(toggleModes: int, current: RepeatMode): (r: Option<RepeatMode>)
    ensures r.Some? ==> r.value != current
    ensures 0 <= toggleModes <= 3 ==> (r.None? <==> ModeAllowed(current, toggleModes))
    ensures 0 <= toggleModes <= 3 && r.Some? ==>
              ModeAllowed(r.value, toggleModes) && (r.value == RepeatOff <==> toggleModes == 0)
  {
    if toggleModes == 0 && current != RepeatOff then Some(RepeatOff)
    else if toggleModes == 1 && current == RepeatAll then Some(RepeatOne)
    else if toggleModes == 2 && current == RepeatOne then Some(RepeatAll)
    else None
  }

  /**
   * For every toggle-mode combination, the player's repeat mode afterwards
   * is allowed, and a mode that was already allowed is left alone.
   */
  lemma RepeatModeAllowedAfterToggle(toggleModes: int, current: RepeatMode)
    requires 0 <= toggleModes <= 3
    ensures var after := match RepeatModeToDispatch(toggleModes, current)
                         case Some(m) => m
                         case None => current;
            ModeAllowed(after, toggleModes)
    ensures ModeAllowed(current, toggleModes) <==> RepeatModeToDispatch(toggleModes, current).None?
  {
  }
}

=== FILE: playback.dfy ===
/**
 * The read-only snapshot of the player that the control view observes: its
 * timeline of windows and periods, playback state, and the listener
 * registration performed when the controlled player is swapped.
 */
module Playback {
  import opened Common

  /** `Player.STATE_*`. */
  datatype PlaybackState = Idle | Buffering | Ready | Ended

  /** `Player.REPEAT_MODE_*`. */
  datatype RepeatMode = RepeatOff | RepeatOne | RepeatAll

  /**
   * One ad group of a period: its time in the period in microseconds
   * (possibly `TIME_END_OF_SOURCE`) and whether it has been played.
   */
  datatype AdGroup = AdGroup(timeUs: int, played: bool)

  /** `Timeline.Period`: its duration (possibly `TIME_UNSET`), its offset in its window and its ad groups. */
  datatype Period = Period(durationUs: int, positionInWindowUs: int, adGroups: seq<AdGroup>)

  /**
   * `Timeline.Window`. The periods `firstPeriodIndex..lastPeriodIndex` of the
   * timeline that belong to this window are held in `periods`, in order.
   */
  datatype Window = Window(durationUs: int, isSeekable: bool, isDynamic: bool, periods: seq<Period>)
  {
    /** `Window.getDurationMs()`. */
    function DurationMs(): int { UsToMs(durationUs) }
  }

  /** `Timeline`: an ordered sequence of windows. */
  datatype Timeline = Timeline(windows: seq<Window>)
  {
    predicate IsEmpty() { |windows| == 0 }
  }

  /** Every window of `ws` has a known duration. */
  predicate AllDurationsKnown(ws: seq<Window>)
  {
    forall i :: 0 <= i < |ws| ==> ws[i].durationUs != TIME_UNSET
  }

  /** Sum of the microsecond durations of `ws`. */
  function TotalDurationUs(ws: seq<Window>): int
  {
    if |ws| == 0 then 0 else TotalDurationUs(ws[..|ws| - 1]) + ws[|ws| - 1].durationUs
  }

  /** The player fields the control view reads. */
  datatype PlayerSnapshot = PlayerSnapshot(
    timeline: Timeline,
    currentWindowIndex: int,
    previousWindowIndex: Option<nat>,  // None is C.INDEX_UNSET
    nextWindowIndex: Option<nat>,      // None is C.INDEX_UNSET
    isPlayingAd: bool,
    playbackState: PlaybackState,
    playWhenReady: bool,
    speed: real,
    repeatMode: RepeatMode,
    currentPositionMs: int,
    contentPositionMs: int,
    contentBufferedPositionMs: int,
    durationMs: int)
  {
    /** What the Player contract guarantees: a non-empty timeline has the current window. */
    predicate Valid()
    {
      !timeline.IsEmpty() ==> 0 <= currentWindowIndex < |timeline.windows|
    }

    /** `Player.hasPrevious()`. */
    predicate HasPrevious() { previousWindowIndex.Some? }

    /** `Player.hasNext()`. */
    predicate HasNext() { nextWindowIndex.Some? }
  }

  /** An opaque identity for a player instance. */
  type PlayerId = nat

  /** A listener (un)registration issued to a player. */
  datatype ListenerOp = RemoveListener(from: PlayerId) | AddListener(to: PlayerId)

  /** Applies listener operations to the set of players the view listens to. */
  function Registered(start: set<PlayerId>, ops: seq<ListenerOp>): set<PlayerId>
  {
    if |ops| == 0 then start
    else
      var before := Registered(start, ops[..|ops| - 1]);
      match ops[|ops| - 1]
      case RemoveListener(p) => before - {p}
      case AddListener(p) => before + {p}
  }

  /** The players in `p`, as a set. */
  function Players(p: Option<PlayerId>): set<PlayerId>
  {
    if p.Some? then {p.value} else {}
  }

  /** The removal from the old player, if any, then the addition to the new one, if any. */
  function SwapOps(current: Option<PlayerId>, next: Option<PlayerId>): seq<ListenerOp>
  {
    (if current.Some? then [RemoveListener(current.value)] else [])
    + (if next.Some? then [AddListener(next.value)] else [])
  }

  lemma SwapRegisters(current: Option<PlayerId>, next: Option<PlayerId>)
    ensures Registered(Players(current), SwapOps(current, next)) == Players(next)
  {
    var ops := SwapOps(current, next);
    match (current, next)
    case (Some(c), Some(n)) =>
      assert ops == [RemoveListener(c), AddListener(n)];
      assert ops[..1] == [RemoveListener(c)] && ops[..1][..0] == [];
      assert Registered({c}, ops[..1]) == {};
    case (Some(c), None) =>
      assert ops == [RemoveListener(c)] && ops[..0] == [];
    case (None, Some(n)) =>
      assert ops == [AddListener(n)] && ops[..0] == [];
    case (None, None) =>
      assert ops == [];
  }

  /**
   * `setPlayer`: the listener operations issued when the controlled player
   * changes from `current` to `next`. Nothing happens when it is the same
   * player; otherwise the old listener goes before the new one is added.
   */
  function SetPlayer(current: Option<PlayerId>, next: Option<PlayerId>): (ops: seq<ListenerOp>)
    ensures current == next ==> ops == []
    ensures forall i :: 0 <= i < |ops| && ops[i].AddListener? ==>
              forall j :: i < j < |ops| ==> !ops[j].RemoveListener?
    ensures current != next ==>
              Registered(Players(current), ops) == Players(next)
  {
    if current == next then []
    else
      SwapRegisters(current, next);
      SwapOps(current, next)
  }
}

=== FILE: polldelay.dfy ===
/**
 * The progress-poll delay chosen at the end of `updateProgress`: how long to
 * wait before refreshing the position display again, as a function of the
 * playback state, playWhenReady, the playback speed and the (already
 * rebased) position.
 */
module PollDelay {
  import opened Common
  import opened Playback

  /** Polls while not advancing, or at very slow speeds, come once a second. */
  const COARSE_DELAY_MS: int := 1000

  /** Polls at speeds above five come every 200 ms. */
  const FAST_DELAY_MS: int := 200

  /**
   * `mediaTimeUpdatePeriodMs`, used only for `0.1 < speed`: one media second
   * divided by the rounded number of real seconds a media second lasts (at
   * least one). Below speed 2/3 it is the media time that passes in about one
   * real second; above, one media second. It is 1000 / k for some k in 1..10.
   */
  function UpdatePeriodMs(speed: real): (periodMs: int)
    requires 0.1 < speed
    ensures exists k :: 1 <= k <= 10 && periodMs == 1000 / k
                        && (k == 1 ==> 1.0 / speed < 1.5)
                        && (k > 1 ==> (k as real) - 0.5 <= 1.0 / speed < (k as real) + 0.5)
    ensures 100 <= periodMs <= 1000
  {
    var inverse := 1.0 / speed;
    assert inverse < 10.0 by {
      assert inverse * speed == 1.0;
      assert (10.0 - inverse) * speed > 0.0;
    }
    var k := Max(1, Round(inverse));
    assert 1 <= k <= 10;
    JavaDiv(1000, k)
  }

  /**
   * `mediaTimeDelayMs`: media time to the next period boundary, pushed one
   * period further when it is under a fifth of a period away.
   */
  function MediaTimeDelayMs(positionMs: int, periodMs: int): int
    requires periodMs > 0
  {
    var d := periodMs - JavaRem(positionMs, periodMs);
    if d < JavaDiv(periodMs, 5) then d + periodMs else d
  }

  /** A media-time delay in real time: itself at speed 1, else `(long) (d / speed)`. */
  function RealTimeDelayMs(d: int, speed: real): int
    requires speed > 0.0
  {
    if speed == 1.0 then d else TruncateToLong(d as real / speed)
  }

  /** The real-time delay for a playing player at `0.1 < speed <= 5`. */
  function BandDelayMs(speed: real, positionMs: int): int
    requires 0.1 < speed <= 5.0
  {
    RealTimeDelayMs(MediaTimeDelayMs(positionMs, UpdatePeriodMs(speed)), speed)
  }

  /**
   * The poll posted after a progress update, or None when none is posted
   * (no player, or the player is idle or ended).
   */
  function NextPollDelay(player: Option<PlayerSnapshot>, positionMs: int): (delay: Option<int>)
    ensures delay.Some? <==> (player.Some? && player.value.playbackState != Idle
                                           && player.value.playbackState != Ended)
    ensures delay.Some? && (!player.value.playWhenReady || player.value.playbackState != Ready
                            || player.value.speed <= 0.1)
            ==> delay.value == COARSE_DELAY_MS
    ensures delay.Some? && player.value.playWhenReady && player.value.playbackState == Ready
            && player.value.speed > 5.0
            ==> delay.value == FAST_DELAY_MS
    ensures delay.Some? && player.value.playWhenReady && player.value.playbackState == Ready
            && 0.1 < player.value.speed <= 5.0
            ==> delay.value == BandDelayMs(player.value.speed, positionMs)
    ensures delay.Some? ==> delay.value > 0
  {
    if player.None? || player.value.playbackState == Idle || player.value.playbackState == Ended then None
    else
      var p := player.value;
      if p.playWhenReady && p.playbackState == Ready then
        if p.speed <= 0.1 then Some(COARSE_DELAY_MS)
        else if p.speed <= 5.0 then
          BandDelayPositive(p.speed, positionMs);
          Some(BandDelayMs(p.speed, positionMs))
        else Some(FAST_DELAY_MS)
      else Some(COARSE_DELAY_MS)
  }

  /**
   * For a non-negative position the media-time delay lands exactly on a
   * period boundary and lies in `[period/5, period + period/5)`.
   */
  lemma MediaTimeDelayAligned(positionMs: int, periodMs: int)
    requires positionMs >= 0 && periodMs >= 5
    ensures var d := MediaTimeDelayMs(positionMs, periodMs);
            periodMs / 5 <= d < periodMs + periodMs / 5
            && exists k :: positionMs + d == k * periodMs
  {
    var q := positionMs / periodMs;
    var rem := positionMs % periodMs;
    assert JavaRem(positionMs, periodMs) == rem;
    assert JavaDiv(periodMs, 5) == periodMs / 5;
    var d := periodMs - rem;
    assert positionMs + d == (q + 1) * periodMs;
    if d < periodMs / 5 {
      assert positionMs + d + periodMs == (q + 2) * periodMs;
    }
  }

  /** For any position the media-time delay is at least a fifth of a period. */
  lemma MediaTimeDelayLowerBound(positionMs: int, periodMs: int)
    requires periodMs > 0
    ensures MediaTimeDelayMs(positionMs, periodMs) >= JavaDiv(periodMs, 5)
  {
  }

  /** Dividing a non-negative amount by a positive speed. */
  lemma Quotient(a: real, speed: real)
    requires a >= 0.0 && speed > 0.0
    ensures a / speed >= 0.0
    ensures (a / speed) * speed == a
  {
  }

  /** `(long) (d / speed)` is at least 4 for `d >= 20` and `0 < speed <= 5`. */
  lemma TruncatedQuotientAtLeast(d: int, speed: real)
    requires d >= 20 && 0.0 < speed <= 5.0
    ensures TruncateToLong(d as real / speed) >= 4
  {
    var x := d as real / speed;
    Quotient(d as real, speed);
    assert (5.0 - speed) * x >= 0.0;
    assert x >= 4.0;
  }

  lemma BandDelayPositive(speed: real, positionMs: int)
    requires 0.1 < speed <= 5.0
    ensures BandDelayMs(speed, positionMs) >= 4
  {
    var period := UpdatePeriodMs(speed);
    MediaTimeDelayLowerBound(positionMs, period);
    var d := MediaTimeDelayMs(positionMs, period);
    assert d >= 20;
    if speed != 1.0 {
      TruncatedQuotientAtLeast(d, speed);
    }
  }

  /**
   * A media delay `d` turned into real time is the whole number of
   * milliseconds that `d` media milliseconds last at `speed`.
   */
  lemma RealTimeDelayBounds(d: int, speed: real)
    requires d >= 0 && speed > 0.0
    ensures var delay := RealTimeDelayMs(d, speed) as real;
            delay <= (d as real) / speed < delay + 1.0
  {
    if speed != 1.0 {
      Quotient(d as real, speed);
    }
  }

  /**
   * While playing at `0.1 < speed <= 5`, the real-time delay is the media
   * time to the chosen boundary, converted at the playback speed and
   * truncated to whole milliseconds.
   */
  lemma BandDelayTracksMediaTime(speed: real, positionMs: int)
    requires 0.1 < speed <= 5.0
    ensures var d := MediaTimeDelayMs(positionMs, UpdatePeriodMs(speed));
            var delay := BandDelayMs(speed, positionMs) as real;
            delay <= (d as real) / speed < delay + 1.0
  {
    var period := UpdatePeriodMs(speed);
    MediaTimeDelayLowerBound(positionMs, period);
    RealTimeDelayBounds(MediaTimeDelayMs(positionMs, period), speed);
  }

  /** At normal speed from position 0 the next poll comes after exactly one second. */
  lemma NormalSpeedFromStart(p: PlayerSnapshot)
    requires p.playbackState == Ready && p.playWhenReady && p.speed == 1.0
    ensures NextPollDelay(Some(p), 0) == Some(1000)
  {
    assert Round(1.0 / 1.0) == 1;
  }

  lemma PeriodAtDoubleSpeed()
    ensures UpdatePeriodMs(2.0) == 1000
  {
    assert 1.0 / 2.0 == 0.5;
    assert Round(0.5) == 1;
  }

  lemma BandDelayAtDoubleSpeed()
    ensures BandDelayMs(2.0, 900) == 550
  {
    PeriodAtDoubleSpeed();
    assert MediaTimeDelayMs(900, 1000) == 1100;
    assert (1100 as real) / 2.0 == 550.0;
    assert TruncateToLong(550.0) == 550;
  }

  /**
   * At double speed `Math.round(0.5)` is 1, so the period stays 1000 ms: from
   * position 900 the 100 ms left are under a fifth of a period, the delay is
   * pushed to 1100 ms of media time, and the poll comes after 550 ms.
   */
  lemma DoubleSpeedExample(p: PlayerSnapshot)
    requires p.playbackState == Ready && p.playWhenReady && p.speed == 2.0
    ensures NextPollDelay(Some(p), 900) == Some(550)
  {
    BandDelayAtDoubleSpeed();
  }

  lemma PeriodAtQuarterSpeed()
    ensures UpdatePeriodMs(0.25) == 250
  {
    assert 1.0 / 0.25 == 4.0;
    assert Round(4.0) == 4;
  }

  lemma BandDelayAtQuarterSpeed()
    ensures BandDelayMs(0.25, 900) == 400
  {
    PeriodAtQuarterSpeed();
    assert MediaTimeDelayMs(900, 250) == 100;
    assert (100 as real) / 0.25 == 400.0;
    assert TruncateToLong(400.0) == 400;
  }

  /** At quarter speed the period is 250 ms of media time, one real second. */
  lemma QuarterSpeedExample(p: PlayerSnapshot)
    requires p.playbackState == Ready && p.playWhenReady && p.speed == 0.25
    ensures NextPollDelay(Some(p), 900) == Some(400)
  {
    BandDelayAtQuarterSpeed();
  }
}

=== FILE: progress.dfy ===
/**
 * `updateProgress` as a whole: the ad-marker scan and merge, the time-bar
 * position, buffered position and duration, the guide rebase, and the next
 * progress poll, in the source's order.
 */
module Progress {
  import opened Common
  import opened Playback
  import opened AdMarkers
  import opened Epg
  import opened PollDelay

  /** What one progress update hands to the display and the poll timer. */
  datatype Frame = Frame(
    positionMs: int,
    bufferedPositionMs: int,
    durationMs: int,
    markers: Option<MarkerBuffer>,  // the arrays given to the time bar, set only with a player
    guide: EpgView,
    poll: Option<int>)              // the delay of the re-posted poll, if one is posted

  datatype ProgressOutcome =
    | Skipped            // hidden or detached: nothing is computed and no pending poll is touched
    | Crashed(fault: Fault)
    | Updated(frame: Frame)

  /**
   * One call of `updateProgress` with the arrays `previous` left by the last
   * call. It fails when the multi-window scan meets an unknown duration, and
   * when guide entries exist without a player.
   */
  method UpdateProgress(
    visible: bool, attached: bool, player: Option<PlayerSnapshot>, multi: bool,
    extras: ExtraMarkers, guide: seq<EpgItem>, previous: MarkerBuffer)
    returns (r: ProgressOutcome)
    requires previous.Valid() && extras.Valid()
    requires player.Some? ==> player.value.Valid()
    ensures r.Skipped? <==> !visible || !attached
    ensures !visible || !attached ==> r == Skipped
    ensures visible && attached && player.None? ==>
              if |guide| > 0 then r == Crashed(NullPointer)
              else r == Updated(Frame(0, 0, 0, None, EpgView(0, 0, false, None), None))
    ensures visible && attached && player.Some? ==>
              var p := player.value;
              var scan := ScanSpec(p.timeline, p.currentWindowIndex, multi);
              && (r.Crashed? <==> scan.Fail?)
              && (r.Updated? ==>
                    && r.frame.markers.Some?
                    && r.frame.markers.value.Valid()
                    && r.frame.markers.value.Contents() == scan.value.markers + extras.Markers()
                    && r.frame.bufferedPositionMs == scan.value.currentOffsetMs + p.contentBufferedPositionMs
                    && r.frame.guide == Rebase(guide, scan.value.currentOffsetMs + p.contentPositionMs,
                                               UsToMs(scan.value.durationUs), p.currentPositionMs)
                    && r.frame.positionMs == r.frame.guide.positionMs
                    && r.frame.durationMs == r.frame.guide.durationMs)
    ensures r.Updated? ==> r.frame.poll == NextPollDelay(player, r.frame.positionMs)
  {
    if !visible || !attached {
      return Skipped;
    }
    var position := 0;
    var bufferedPosition := 0;
    var duration := 0;
    var markers: Option<MarkerBuffer> := None;
    if player.Some? {
      var p := player.value;
      var scan := ScanAdGroups(p.timeline, p.currentWindowIndex, multi, previous);
      if scan.Fail? {
        return Crashed(scan.fault);
      }
      duration := UsToMs(scan.value.durationUs);
      position := scan.value.currentOffsetMs + p.contentPositionMs;
      bufferedPosition := scan.value.currentOffsetMs + p.contentBufferedPositionMs;
      markers := Some(MergeExtras(scan.value.buffer, extras));
    }
    if |guide| > 0 && player.None? {
      // player.getCurrentPosition() on a null player
      return Crashed(NullPointer);
    }
    var currentPosition := if player.Some? then player.value.currentPositionMs else 0;
    var view := Rebase(guide, position, duration, currentPosition);
    position := view.positionMs;
    duration := view.durationMs;
    var poll := NextPollDelay(player, position);
    return Updated(Frame(position, bufferedPosition, duration, markers, view, poll));
  }
}

=== FILE: seekaccumulator.dfy ===
/**
 * The debounced seek: `forward(long)` and `rewind(long)` add into a pending
 * delta `addValue` and (re)schedule a single flush a quiet period later; the
 * flush (`mHandler.handleMessage`) applies the delta as one seek and clears
 * it, and `setSeekToTimeText` keeps the pending delta on the label.
 */
module SeekAccumulator {
  import opened Common
  import opened Playback
  import opened TimeBar
  import SeekText

  /** `SUNDUK_STEP_1`: ten seconds. */
  const STEP_SHORT_MS: int := 10 * 1000
  /** `SUNDUK_STEP_2`: one minute. */
  const STEP_MEDIUM_MS: int := 60 * 1000
  /** `SUNDUK_STEP_3`: ten minutes. */
  const STEP_LONG_MS: int := 10 * 60 * 1000

  /** Delay of the flush message after the latest nudge. */
  const QUIET_PERIOD_MS: int := 2 * 1000

  /**
   * The accumulator: the pending delta, the times at which pending flush
   * messages are delivered, and the label (None: no text and invisible).
   */
  datatype Accumulator = Accumulator(addValue: int, pendingFlushes: seq<int>, shown: Option<string>)

  /** Nothing pending and the label cleared. */
  const Idle: Accumulator := Accumulator(0, [], None)

  /**
   * At most one flush is pending; while one is, the label shows the pending
   * delta; without one there is no delta and the label is cleared.
   */
  predicate Inv(a: Accumulator)
  {
    && |a.pendingFlushes| <= 1
    && (a.pendingFlushes != [] ==> a.shown == Some(SeekText.Format(a.addValue)))
    && (a.pendingFlushes == [] ==> a.addValue == 0 && a.shown.None?)
  }

  /**
   * The shared body of `forward` and `rewind`: add `deltaMs` to the pending
   * delta, replace any pending flush by one a quiet period after `now`, and
   * show the new delta.
   */
  function Nudge(a: Accumulator, deltaMs: int, now: int): (r: Accumulator)
    ensures r.addValue == a.addValue + deltaMs
    ensures r.pendingFlushes == [now + QUIET_PERIOD_MS]
    ensures r.shown == Some(SeekText.Format(r.addValue))
    ensures Inv(r)
  {
    var added := a.addValue + deltaMs;
    Accumulator(added, [now + QUIET_PERIOD_MS], Some(SeekText.Format(added)))
  }

  /** `forward(value)`. */
  function Forward(a: Accumulator, value: int, now: int): (r: Accumulator)
    ensures r.addValue - a.addValue == value
    ensures r.pendingFlushes == [now + QUIET_PERIOD_MS] && Inv(r)
  {
    Nudge(a, value, now)
  }

  /** `rewind(value)`. */
  function Rewind(a: Accumulator, value: int, now: int): (r: Accumulator)
    ensures a.addValue - r.addValue == value
    ensures r.pendingFlushes == [now + QUIET_PERIOD_MS] && Inv(r)
  {
    Nudge(a, -value, now)
  }

  /** What a flush does to the player. */
  datatype FlushEffect =
    | NoSeek
    | ReportToListener(deltaMs: int)  // mOnSeekListener.seek(addValue)
    | Seek(target: SeekTarget)        // seekTo(currentWindowIndex, position)

  datatype Flushed = Flushed(acc: Accumulator, effect: FlushEffect)

  /**
   * `handleMessage`: with no known duration the delta goes to the seek
   * listener (if one is set); otherwise a non-zero delta seeks in the current
   * window, clamped to `[0, duration]` on the side it moves towards. The
   * delta and the label are cleared either way. Without a player it fails.
   */
  function Flush(a: Accumulator, player: Option<PlayerSnapshot>, hasListener: bool): (r: Result<Flushed>)
    ensures player.None? <==> r.Fail?
    ensures r.Fail? ==> r.fault == NullPointer
    ensures r.Ok? ==> r.value.acc == Accumulator(0, a.pendingFlushes, None)
    ensures r.Ok? ==>
              (r.value.effect.ReportToListener? <==> player.value.durationMs <= 0 && hasListener)
              && (r.value.effect.ReportToListener? ==> r.value.effect.deltaMs == a.addValue)
    ensures r.Ok? ==>
              (r.value.effect.Seek? <==> player.value.durationMs > 0 && a.addValue != 0)
    ensures r.Ok? && r.value.effect.Seek? ==>
              var p := player.value;
              var target := r.value.effect.target;
              var wanted := p.currentPositionMs + a.addValue;
              && target.windowIndex == p.currentWindowIndex
              && (a.addValue > 0 ==>
                    target.positionMs <= p.durationMs
                    && (target.positionMs == wanted || (target.positionMs == p.durationMs && wanted > p.durationMs)))
              && (a.addValue < 0 ==>
                    target.positionMs >= 0
                    && (target.positionMs == wanted || (target.positionMs == 0 && wanted < 0)))
  {
    if player.None? then Fail(NullPointer)
    else
      var p := player.value;
      var effect :=
        if p.durationMs <= 0 then
          if hasListener then ReportToListener(a.addValue) else NoSeek
        else if a.addValue > 0 then Seek(SeekTarget(p.currentWindowIndex, Min(p.currentPositionMs + a.addValue, p.durationMs)))
        else if a.addValue < 0 then Seek(SeekTarget(p.currentWindowIndex, Max(p.currentPositionMs + a.addValue, 0)))
        else NoSeek;
      Ok(Flushed(a.(addValue := 0, shown := None), effect))
  }

  /** The earliest pending flush message is delivered; with none pending nothing happens. */
  function FlushFires(a: Accumulator, player: Option<PlayerSnapshot>, hasListener: bool): (r: Result<Flushed>)
    ensures a.pendingFlushes == [] ==> r == Ok(Flushed(a, NoSeek))
    ensures a.pendingFlushes != [] ==> r == Flush(a.(pendingFlushes := a.pendingFlushes[1..]), player, hasListener)
    ensures Inv(a) && r.Ok? ==> Inv(r.value.acc) && r.value.acc == Idle
  {
    if a.pendingFlushes == [] then Ok(Flushed(a, NoSeek))
    else Flush(a.(pendingFlushes := a.pendingFlushes[1..]), player, hasListener)
  }

  // ---------------------------------------------------------------------------
  // Properties
  // ---------------------------------------------------------------------------

  /**
   * With the player's position inside `[0, duration]`, a flush seeks inside
   * `[0, duration]`, in the direction of the delta, and exactly by the delta
   * when that stays inside.
   */
  lemma FlushStaysInRange(a: Accumulator, p: PlayerSnapshot, hasListener: bool)
    requires 0 < p.durationMs && 0 <= p.currentPositionMs <= p.durationMs && a.addValue != 0
    ensures var r := Flush(a, Some(p), hasListener);
            var q := r.value.effect.target.positionMs;
            && r.Ok? && r.value.effect.Seek?
            && 0 <= q <= p.durationMs
            && (a.addValue > 0 ==> q >= p.currentPositionMs)
            && (a.addValue < 0 ==> q <= p.currentPositionMs)
            && (0 <= p.currentPositionMs + a.addValue <= p.durationMs ==> q == p.currentPositionMs + a.addValue)
  {
  }

  /** A nudge: a signed delta and the time at which it is made. */
  datatype Step = Step(deltaMs: int, at: int)

  function SumDeltas(steps: seq<Step>): int
  {
    if |steps| == 0 then 0 else SumDeltas(steps[..|steps| - 1]) + steps[|steps| - 1].deltaMs
  }

  /** Applies the nudges in order. */
  function NudgeAll(a: Accumulator, steps: seq<Step>): Accumulator
  {
    if |steps| == 0 then a
    else
      var last := steps[|steps| - 1];
      Nudge(NudgeAll(a, steps[..|steps| - 1]), last.deltaMs, last.at)
  }

  /**
   * Any burst of nudges leaves a single pending flush, a quiet period after
   * the last one, carrying the sum of all their deltas, and the label shows
   * that sum.
   */
  lemma {:induction false} NudgesCoalesce(a: Accumulator, steps: seq<Step>)
    requires |steps| > 0
    ensures var r := NudgeAll(a, steps);
            && r.addValue == a.addValue + SumDeltas(steps)
            && r.pendingFlushes == [steps[|steps| - 1].at + QUIET_PERIOD_MS]
            && r.shown == Some(SeekText.Format(r.addValue))
            && Inv(r)
  {
    if |steps| > 1 {
      NudgesCoalesce(a, steps[..|steps| - 1]);
    }
  }

  lemma ThreeStepsSum(steps: seq<Step>)
    requires steps == [Step(STEP_SHORT_MS, 0), Step(STEP_SHORT_MS, 500), Step(STEP_SHORT_MS, 900)]
    ensures SumDeltas(steps) == 30_000
  {
    assert steps[..1][..0] == [] && steps[..2][..1] == steps[..1] && steps[..3] == steps;
    assert SumDeltas(steps[..1]) == 10_000;
    assert SumDeltas(steps[..2]) == 20_000;
  }

  /**
   * Three ten-second nudges from rest, then the flush: one seek thirty
   * seconds ahead in the current window, and the accumulator is back at rest.
   */
  lemma ThreeNudgesExample(p: PlayerSnapshot)
    requires p.durationMs >= p.currentPositionMs + 30_000 && p.currentPositionMs >= 0
    ensures var steps := [Step(STEP_SHORT_MS, 0), Step(STEP_SHORT_MS, 500), Step(STEP_SHORT_MS, 900)];
            var a := NudgeAll(Idle, steps);
            && a.pendingFlushes == [2900]
            && FlushFires(a, Some(p), false)
               == Ok(Flushed(Idle, Seek(SeekTarget(p.currentWindowIndex, p.currentPositionMs + 30_000))))
  {
    var steps := [Step(STEP_SHORT_MS, 0), Step(STEP_SHORT_MS, 500), Step(STEP_SHORT_MS, 900)];
    NudgesCoalesce(Idle, steps);
    ThreeStepsSum(steps);
    var a := NudgeAll(Idle, steps);
    assert a.addValue == 30_000 && a.pendingFlushes == [2900];
    var drained := a.(pendingFlushes := a.pendingFlushes[1..]);
    assert drained.pendingFlushes == [];
    assert FlushFires(a, Some(p), false) == Flush(drained, Some(p), false);
  }
}

=== FILE: seektext.dfy ===
/**
 * `setSeekToTimeText`: the label that shows the pending seek delta as a sign
 * and `H:MM:SS` of its magnitude, with a parser that reads such a label back.
 */
module SeekText {
  import opened Common

  function DigitChar(d: nat): (c: char)
    requires d < 10
    ensures '0' <= c <= '9' && (c - '0') as nat == d
  {
    "0123456789"[d]
  }

  /** `%d` of a non-negative number: its decimal digits, no leading zeros. */
  function Decimal(n: nat): (s: string)
    ensures |s| >= 1 && (forall i :: 0 <= i < |s| ==> '0' <= s[i] <= '9')
    ensures n > 0 ==> s[0] != '0'
  {
    if n < 10 then [DigitChar(n)] else Decimal(n / 10) + [DigitChar(n % 10)]
  }

  /** `%02d` of a number under 100: two digits, zero-padded. */
  function TwoDigits(n: nat): (s: string)
    requires n < 100
    ensures |s| == 2 && '0' <= s[0] <= '9' && '0' <= s[1] <= '9'
  {
    [DigitChar(n / 10), DigitChar(n % 10)]
  }

  /** The value of a string of decimal digits; None for an empty string or one with another character. */
  function ParseDecimal(s: string): (n: Option<nat>)
    ensures n.Some? <==> |s| >= 1 && forall i :: 0 <= i < |s| ==> '0' <= s[i] <= '9'
  {
    if |s| == 0 || !('0' <= s[|s| - 1] <= '9') then None
    else if |s| == 1 then Some((s[0] - '0') as nat)
    else match ParseDecimal(s[..|s| - 1])
         case None => None
         case Some(m) => Some(m * 10 + (s[|s| - 1] - '0') as nat)
  }

  /** The label's fields: the sign and `TimeUnit` hours, minutes mod 60 and seconds mod 60 of the magnitude. */
  datatype Fields = Fields(negative: bool, hours: nat, minutes: nat, seconds: nat)

  /** The fields `setSeekToTimeText` computes for `addValue`. */
  function FieldsOf(addValue: int): (f: Fields)
    ensures f.minutes < 60 && f.seconds < 60
    ensures f.negative <==> addValue < 0
    ensures f.hours * 3600 + f.minutes * 60 + f.seconds == JavaAbs(addValue) / 1000
  {
    var magnitude := JavaAbs(addValue);
    var wholeSeconds := magnitude / 1000;
    assert magnitude / 3_600_000 == wholeSeconds / 3600;
    assert magnitude / 60_000 == wholeSeconds / 60;
    assert wholeSeconds / 60 == (wholeSeconds / 3600) * 60 + (wholeSeconds / 60) % 60;
    Fields(addValue < 0, magnitude / 3_600_000, (magnitude / 60_000) % 60, (magnitude / 1000) % 60)
  }

  /** The label: `"+ "` for a non-negative delta (zero included), else `"- "`, then `H:MM:SS`. */
  function Format(addValue: int): (text: string)
    ensures |text| >= 9
    ensures text[..2] == (if addValue >= 0 then "+ " else "- ")
  {
    var f := FieldsOf(addValue);
    (if f.negative then "- " else "+ ") + Decimal(f.hours) + ":" + TwoDigits(f.minutes) + ":" + TwoDigits(f.seconds)
  }

  /** Reads a label back: a sign and space, hour digits, then `:MM:SS`. */
  function Parse(text: string): (f: Option<Fields>)
    ensures f.Some? ==> f.value.minutes < 100 && f.value.seconds < 100
  {
    if |text| < 9 || text[..2] !in {"+ ", "- "} || text[|text| - 6] != ':' || text[|text| - 3] != ':' then None
    else
      match (ParseDecimal(text[2..|text| - 6]), ParseDecimal(text[|text| - 5..|text| - 3]),
             ParseDecimal(text[|text| - 2..]))
      case (Some(h), Some(m), Some(s)) =>
        assert m < 100 && s < 100 by { TwoDigitBound(text[|text| - 5..|text| - 3]); TwoDigitBound(text[|text| - 2..]); }
        Some(Fields(text[0] == '-', h, m, s))
      case _ => None
  }

  lemma TwoDigitBound(s: string)
    requires |s| == 2 && ParseDecimal(s).Some?
    ensures ParseDecimal(s).value < 100
  {
    assert s[..1] == [s[0]];
  }

  lemma {:induction false} ParseDecimalOfDecimal(n: nat)
    ensures ParseDecimal(Decimal(n)) == Some(n)
  {
    if n >= 10 {
      var s := Decimal(n);
      assert s[..|s| - 1] == Decimal(n / 10);
      ParseDecimalOfDecimal(n / 10);
    }
  }

  lemma ParseTwoDigits(n: nat)
    requires n < 100
    ensures ParseDecimal(TwoDigits(n)) == Some(n)
  {
    var s := TwoDigits(n);
    assert s[..1] == [DigitChar(n / 10)];
  }

  /**
   * The label reads back as its fields: the sign, and hours, minutes and
   * seconds that add up to the whole seconds of the delta's magnitude.
   */
  lemma ParseFormat(addValue: int)
    ensures Parse(Format(addValue)) == Some(FieldsOf(addValue))
  {
    var f := FieldsOf(addValue);
    var sign := if f.negative then "- " else "+ ";
    var hs := Decimal(f.hours);
    var ms := TwoDigits(f.minutes);
    var ss := TwoDigits(f.seconds);
    var text := Format(addValue);
    assert text == sign + hs + ":" + ms + ":" + ss;
    var n := |text|;
    assert n == |hs| + 8;
    assert text[..2] == sign;
    assert text[2..n - 6] == hs;
    assert text[n - 5..n - 3] == ms;
    assert text[n - 2..] == ss;
    assert text[n - 6] == ':' && text[n - 3] == ':';
    ParseDecimalOfDecimal(f.hours);
    ParseTwoDigits(f.minutes);
    ParseTwoDigits(f.seconds);
  }

  /**
   * Two deltas with the same label have the same sign and the same whole
   * seconds of magnitude: the label loses only the milliseconds.
   */
  lemma FormatDeterminesSeconds(v1: int, v2: int)
    requires Format(v1) == Format(v2)
    ensures (v1 < 0 <==> v2 < 0)
    ensures JavaAbs(v1) / 1000 == JavaAbs(v2) / 1000
  {
    ParseFormat(v1);
    ParseFormat(v2);
  }

  /** Ninety seconds back reads `- 0:01:30`. */
  lemma RewindLabelExample()
    ensures Format(-90_000) == "- 0:01:30"
  {
    assert FieldsOf(-90_000) == Fields(true, 0, 1, 30);
    assert Decimal(0) == "0" && TwoDigits(1) == "01" && TwoDigits(30) == "30";
  }

  /** An empty delta reads `+ 0:00:00`: zero takes the plus sign. */
  lemma ZeroLabelExample()
    ensures Format(0) == "+ 0:00:00"
  {
    assert FieldsOf(0) == Fields(false, 0, 0, 0);
    assert Decimal(0) == "0" && TwoDigits(0) == "00";
  }

  /** An hour, two minutes and three seconds forward reads `+ 1:02:03`. */
  lemma HourLabelExample()
    ensures Format(3_723_000) == "+ 1:02:03"
  {
    assert FieldsOf(3_723_000) == Fields(false, 1, 2, 3);
    assert Decimal(1) == "1" && TwoDigits(2) == "02" && TwoDigits(3) == "03";
  }
}

=== FILE: timebar.dfy ===
/**
 * The time bar's window mode and the mapping from a time-bar position back to
 * a (window, position) seek target.
 */
module TimeBar {
  import opened Common
  import opened Playback
  import AdMarkers

  /** `MAX_WINDOWS_FOR_MULTI_WINDOW_TIME_BAR`. */
  const MAX_WINDOWS_FOR_MULTI_WINDOW_TIME_BAR: nat := 100

  /** A timeline can be shown on a multi-window time bar: few enough windows, all of known duration. */
  predicate MultiWindowEligible(t: Timeline)
  {
    |t.windows| <= MAX_WINDOWS_FOR_MULTI_WINDOW_TIME_BAR && AllDurationsKnown(t.windows)
  }

  /** `canShowMultiWindowTimeBar`: the window-count test, then a scan for an unknown duration. */
  method CanShowMultiWindowTimeBar(t: Timeline) returns (ok: bool)
    ensures ok <==> MultiWindowEligible(t)
  {
    if |t.windows| > MAX_WINDOWS_FOR_MULTI_WINDOW_TIME_BAR {
      return false;
    }
    var windowCount := |t.windows|;
    var i := 0;
    while i < windowCount
      invariant 0 <= i <= windowCount
      invariant forall k :: 0 <= k < i ==> t.windows[k].durationUs != TIME_UNSET
    {
      if t.windows[i].durationUs == TIME_UNSET {
        return false;
      }
      i := i + 1;
    }
    return true;
  }

  /**
   * `updateTimeBarMode`: with a player, multi-window mode is on iff it is
   * requested and the player's timeline is eligible; without one the mode is
   * left as it was. A mode chosen this way never makes the scan fail.
   */
  function TimeBarMode(showMultiWindowTimeBar: bool, player: Option<PlayerSnapshot>, mode: bool): (multi: bool)
    ensures player.None? ==> multi == mode
    ensures player.Some? ==>
              (multi <==> showMultiWindowTimeBar && MultiWindowEligible(player.value.timeline))
    ensures player.Some? && player.value.Valid() ==>
              AdMarkers.ScanSpec(player.value.timeline, player.value.currentWindowIndex, multi).Ok?
  {
    if player.None? then mode
    else showMultiWindowTimeBar && MultiWindowEligible(player.value.timeline)
  }

  /** Sum of the millisecond durations (`getDurationMs`) of the first `k` windows. */
  function PrefixMs(ws: seq<Window>, k: nat): int
    requires k <= |ws|
  {
    if k == 0 then 0 else PrefixMs(ws, k - 1) + ws[k - 1].DurationMs()
  }

  /** A seek command: window index and position in that window, in milliseconds. */
  datatype SeekTarget = SeekTarget(windowIndex: int, positionMs: int)

  /**
   * Position `positionMs`, counted from the start of window `i`, reaches past
   * the end of every window from `i` up to (not including) window `k`.
   */
  predicate PassesWindows(ws: seq<Window>, positionMs: int, i: nat, k: nat)
    requires i <= k <= |ws|
    decreases k - i
  {
    i == k || (positionMs >= ws[i].DurationMs() && PassesWindows(ws, positionMs - ws[i].DurationMs(), i + 1, k))
  }

  /** `PassesWindows` in terms of the windows' time-bar offsets. */
  lemma {:induction false} PassesWindowsOffsets(ws: seq<Window>, positionMs: int, i: nat, k: nat)
    requires i <= k <= |ws|
    ensures PassesWindows(ws, positionMs, i, k) <==>
            forall j :: i <= j < k ==> positionMs - (PrefixMs(ws, j) - PrefixMs(ws, i)) >= ws[j].DurationMs()
    decreases k - i
  {
    if i < k {
      var rest := positionMs - ws[i].DurationMs();
      PassesWindowsOffsets(ws, rest, i + 1, k);
      assert PrefixMs(ws, i + 1) == PrefixMs(ws, i) + ws[i].DurationMs();
      forall j | i + 1 <= j < k
        ensures positionMs - (PrefixMs(ws, j) - PrefixMs(ws, i)) == rest - (PrefixMs(ws, j) - PrefixMs(ws, i + 1))
      {
      }
    }
  }

  /**
   * The `while (true)` loop of `seekToTimeBarPosition`, from window `i` with
   * `positionMs` left: stop in the first window the position falls short of,
   * or at the end of the last window.
   */
  function Locate(ws: seq<Window>, positionMs: int, i: nat): (r: SeekTarget)
    requires i < |ws|
    decreases |ws| - i
    ensures i <= r.windowIndex < |ws|
    ensures var skipped := PrefixMs(ws, r.windowIndex) - PrefixMs(ws, i);
            (r.positionMs == positionMs - skipped && r.positionMs < ws[r.windowIndex].DurationMs())
            || (r.windowIndex == |ws| - 1 && positionMs - skipped >= ws[r.windowIndex].DurationMs()
                && r.positionMs == ws[r.windowIndex].DurationMs())
    ensures PassesWindows(ws, positionMs, i, r.windowIndex)
  {
    var windowDurationMs := ws[i].DurationMs();
    if positionMs < windowDurationMs then SeekTarget(i, positionMs)
    else if i == |ws| - 1 then SeekTarget(i, windowDurationMs)
    else Locate(ws, positionMs - windowDurationMs, i + 1)
  }

  /**
   * `seekToTimeBarPosition`: in multi-window mode on a non-empty timeline the
   * position is split into a window and a position in it; otherwise it is a
   * position in the current window.
   */
  function SeekToTimeBarPosition(t: Timeline, multi: bool, current: int, positionMs: int): (r: SeekTarget)
    ensures !multi || t.IsEmpty() ==> r == SeekTarget(current, positionMs)
    ensures multi && !t.IsEmpty() ==> 0 <= r.windowIndex < |t.windows|
    ensures multi && !t.IsEmpty() ==>
              var ws := t.windows;
              var skipped := PrefixMs(ws, r.windowIndex);
              && PassesWindows(ws, positionMs, 0, r.windowIndex)
              && ((r.positionMs == positionMs - skipped && r.positionMs < ws[r.windowIndex].DurationMs())
                  || (r.windowIndex == |ws| - 1 && positionMs - skipped >= ws[r.windowIndex].DurationMs()
                      && r.positionMs == ws[r.windowIndex].DurationMs()))
  {
    if multi && !t.IsEmpty() then Locate(t.windows, positionMs, 0)
    else SeekTarget(current, positionMs)
  }

  predicate PositiveDurations(ws: seq<Window>)
  {
    forall j :: 0 <= j < |ws| ==> ws[j].DurationMs() > 0
  }

  lemma {:induction false} PrefixMsMonotone(ws: seq<Window>, i: nat, k: nat)
    requires i <= k <= |ws|
    requires PositiveDurations(ws)
    ensures PrefixMs(ws, k) - PrefixMs(ws, i) >= k - i
  {
    if i < k {
      PrefixMsMonotone(ws, i, k - 1);
    }
  }

  /** Every window's duration in milliseconds is non-negative; windows of duration 0 are allowed. */
  predicate NonNegativeDurations(ws: seq<Window>)
  {
    forall j :: 0 <= j < |ws| ==> ws[j].DurationMs() >= 0
  }

  lemma {:induction false} PrefixMsNonDecreasing(ws: seq<Window>, i: nat, k: nat)
    requires i <= k <= |ws|
    requires NonNegativeDurations(ws)
    ensures PrefixMs(ws, k) >= PrefixMs(ws, i)
  {
    if i < k {
      PrefixMsNonDecreasing(ws, i, k - 1);
    }
  }

  /**
   * Seeking to the time-bar position of position `q` of window `w` lands on
   * `(w, q)`, when no window has a negative duration.
   */
  lemma {:induction false} LocateRoundTrip(ws: seq<Window>, i: nat, w: nat, q: int)
    requires i <= w < |ws|
    requires NonNegativeDurations(ws)
    requires 0 <= q < ws[w].DurationMs()
    ensures Locate(ws, PrefixMs(ws, w) - PrefixMs(ws, i) + q, i) == SeekTarget(w, q)
    decreases w - i
  {
    var pos := PrefixMs(ws, w) - PrefixMs(ws, i) + q;
    if i < w {
      PrefixMsNonDecreasing(ws, i + 1, w);
      assert PrefixMs(ws, i + 1) == PrefixMs(ws, i) + ws[i].DurationMs();
      assert pos >= ws[i].DurationMs();
      assert pos - ws[i].DurationMs() == PrefixMs(ws, w) - PrefixMs(ws, i + 1) + q;
      LocateRoundTrip(ws, i + 1, w, q);
      LocateStep(ws, pos, i);
    } else {
      assert pos == q;
      LocateHere(ws, q, w);
    }
  }

  /** A position short of window `i`'s duration is looked up in window `i` itself. */
  lemma LocateHere(ws: seq<Window>, positionMs: int, i: nat)
    requires i < |ws| && positionMs < ws[i].DurationMs()
    ensures Locate(ws, positionMs, i) == SeekTarget(i, positionMs)
  {
  }

  /** A position past window `i` (not the last) is looked up from window `i + 1` with that window's duration taken off. */
  lemma LocateStep(ws: seq<Window>, positionMs: int, i: nat)
    requires i < |ws| - 1 && positionMs >= ws[i].DurationMs()
    ensures Locate(ws, positionMs, i) == Locate(ws, positionMs - ws[i].DurationMs(), i + 1)
  {
  }

  /** A position at or past the end of the timeline seeks to the end of the last window. */
  lemma {:induction false} LocatePastEnd(ws: seq<Window>, i: nat, positionMs: int)
    requires i < |ws|
    requires NonNegativeDurations(ws)
    requires positionMs >= PrefixMs(ws, |ws|) - PrefixMs(ws, i)
    ensures Locate(ws, positionMs, i) == SeekTarget(|ws| - 1, ws[|ws| - 1].DurationMs())
    decreases |ws| - i
  {
    if i < |ws| - 1 {
      PrefixMsNonDecreasing(ws, i + 1, |ws|);
      assert PrefixMs(ws, i + 1) == PrefixMs(ws, i) + ws[i].DurationMs();
      assert positionMs >= ws[i].DurationMs();
      LocatePastEnd(ws, i + 1, positionMs - ws[i].DurationMs());
      LocateStep(ws, positionMs, i);
    } else {
      assert PrefixMs(ws, |ws|) == PrefixMs(ws, i) + ws[i].DurationMs();
    }
  }

  /**
   * In multi-window mode, a time-bar position at or past the end of the
   * timeline seeks to the end of the last window.
   */
  lemma SeekPastTimelineEnd(t: Timeline, current: int, positionMs: int)
    requires !t.IsEmpty() && NonNegativeDurations(t.windows)
    requires positionMs >= PrefixMs(t.windows, |t.windows|)
    ensures SeekToTimeBarPosition(t, true, current, positionMs)
            == SeekTarget(|t.windows| - 1, t.windows[|t.windows| - 1].DurationMs())
  {
    LocatePastEnd(t.windows, 0, positionMs);
  }

  /** Window durations that are whole, non-negative milliseconds. */
  predicate WholeMsDurations(ws: seq<Window>)
  {
    forall j :: 0 <= j < |ws| ==> ws[j].durationUs >= 0 && ws[j].durationUs % 1000 == 0
  }

  /** For whole-millisecond durations the scan's microsecond offset agrees with the summed milliseconds. */
  lemma {:induction false} ScanOffsetIsPrefixMs(ws: seq<Window>, k: nat)
    requires k <= |ws|
    requires WholeMsDurations(ws)
    ensures TotalDurationUs(ws[..k]) == PrefixMs(ws, k) * 1000
  {
    if k > 0 {
      assert ws[..k][..k - 1] == ws[..k - 1];
      ScanOffsetIsPrefixMs(ws, k - 1);
      assert ws[k - 1].DurationMs() * 1000 == ws[k - 1].durationUs;
    }
  }

  /**
   * In multi-window mode, the time-bar position that `updateProgress` shows
   * for content position `q` of the current window seeks back to exactly
   * that window and position, for whole-millisecond durations.
   */
  lemma TimeBarRoundTrip(t: Timeline, current: nat, q: int)
    requires current < |t.windows|
    requires WholeMsDurations(t.windows)
    requires 0 <= q < t.windows[current].DurationMs()
    ensures AdMarkers.ScanSpec(t, current, true).Ok?
    ensures SeekToTimeBarPosition(t, true, current, AdMarkers.ScanSpec(t, current, true).value.currentOffsetMs + q)
            == SeekTarget(current, q)
  {
    var ws := t.windows;
    assert AllDurationsKnown(ws) by {
      forall j | 0 <= j < |ws| ensures ws[j].durationUs != TIME_UNSET { }
    }
    assert NonNegativeDurations(ws) by {
      forall j | 0 <= j < |ws| ensures ws[j].DurationMs() >= 0 { }
    }
    ScanOffsetIsPrefixMs(ws, current);
    assert UsToMs(TotalDurationUs(ws[..current])) == PrefixMs(ws, current);
    LocateRoundTrip(ws, 0, current, q);
  }

  /**
   * With durations that are not whole milliseconds the two conversions drift:
   * the scan places the start of the third of these windows at 3 ms, but
   * seeking there lands 1 ms into it.
   */
  lemma OffsetDriftExample()
    ensures var ws := [Window(1500, true, false, []), Window(1500, true, false, []),
                       Window(1_000_000, true, false, [])];
            var t := Timeline(ws);
            AdMarkers.ScanSpec(t, 2, true) == Ok(AdMarkers.Scan([], 1_003_000, 3))
            && SeekToTimeBarPosition(t, true, 2, 3) == SeekTarget(2, 1)
  {
    var ws := [Window(1500, true, false, []), Window(1500, true, false, []),
               Window(1_000_000, true, false, [])];
    assert ws[..2] == [ws[0], ws[1]];
    assert ws[..2][..1] == [ws[0]];
    assert ws[..3] == ws;
    assert [ws[0]][..0] == [];
    assert TotalDurationUs([ws[0]]) == 1500;
    assert TotalDurationUs(ws[..2]) == 3000;
    assert AdMarkers.WindowsMarkers(ws[..0]) == [];
    assert AdMarkers.WindowsMarkers(ws) == [];
  }
}

=== FILE: visibility.dfy ===
/**
 * The show/hide life cycle of the controls: `show`, `hide`,
 * `hideAfterTimeout`, attach and detach, touch events, and the two callbacks
 * the view posts to itself (the hide action and the progress poll).
 *
 * Posting a callback appends it to a pending list and `removeCallbacks`
 * empties that list, so "at most one pending" is a provable property rather
 * than a consequence of the representation.
 */
module Visibility {
  import opened Common

  /** `DEFAULT_SHOW_TIMEOUT_MS`. */
  const DEFAULT_SHOW_TIMEOUT_MS: int := 10000

  /** The view's visibility state. */
  datatype Controls = Controls(
    visible: bool,
    attached: bool,        // isAttachedToWindow
    showTimeoutMs: int,
    hideAtMs: Option<int>, // None is C.TIME_UNSET
    pendingHides: seq<int>,  // uptime at which each posted hideAction runs
    pendingPolls: nat,       // posted updateProgressAction callbacks
    notices: seq<bool>)      // visibility changes reported to the listener; true is VISIBLE

  /** A freshly constructed view: detached, nothing pending, the default timeout. */
  function Initial(visible: bool): (c: Controls)
    ensures c.visible == visible && !c.attached && c.showTimeoutMs == DEFAULT_SHOW_TIMEOUT_MS
    ensures c.hideAtMs.None? && c.pendingHides == [] && c.pendingPolls == 0 && c.notices == []
    ensures Inv(c)
  {
    Controls(visible, false, DEFAULT_SHOW_TIMEOUT_MS, None, [], 0, [])
  }

  /**
   * The scheduling invariant: at most one hide and one poll pending; a
   * pending hide needs the view attached and runs at `hideAtMs`; a pending
   * poll needs it attached and visible.
   */
  predicate Inv(c: Controls)
  {
    && |c.pendingHides| <= 1
    && c.pendingPolls <= 1
    && (c.pendingHides != [] ==> c.attached && c.hideAtMs == Some(c.pendingHides[0]))
    && (c.pendingPolls > 0 ==> c.attached && c.visible)
  }

  /**
   * The scheduling part of `updateProgress` (via `updateAll`): when visible
   * and attached, the pending poll is cancelled and one is posted iff
   * `poll` (the player is neither idle nor ended); otherwise nothing changes.
   */
  function RefreshProgress(c: Controls, poll: bool): (r: Controls)
    ensures r.visible == c.visible && r.attached == c.attached && r.hideAtMs == c.hideAtMs
    ensures r.pendingHides == c.pendingHides && r.notices == c.notices && r.showTimeoutMs == c.showTimeoutMs
    ensures c.visible && c.attached ==> r.pendingPolls == (if poll then 1 else 0)
    ensures !(c.visible && c.attached) ==> r == c
    ensures Inv(c) ==> Inv(r)
  {
    if c.visible && c.attached then c.(pendingPolls := if poll then 1 else 0) else c
  }

  /**
   * `hideAfterTimeout`: cancels the pending hide; with a positive timeout the
   * deadline becomes `now + timeout` and, when attached, a hide is posted for
   * it; otherwise the deadline is cleared.
   */
  function HideAfterTimeout(c: Controls, now: int): (r: Controls)
    ensures r.visible == c.visible && r.attached == c.attached && r.notices == c.notices
    ensures r.pendingPolls == c.pendingPolls && r.showTimeoutMs == c.showTimeoutMs
    ensures r.hideAtMs == (if c.showTimeoutMs > 0 then Some(now + c.showTimeoutMs) else None)
    ensures r.pendingHides == (if c.showTimeoutMs > 0 && c.attached then [now + c.showTimeoutMs] else [])
    ensures Inv(c) ==> Inv(r)
  {
    var cancelled := c.(pendingHides := []);
    if c.showTimeoutMs > 0 then
      cancelled.(hideAtMs := Some(now + c.showTimeoutMs),
                 pendingHides := if c.attached then [now + c.showTimeoutMs] else [])
    else cancelled.(hideAtMs := None)
  }

  /**
   * `show`: a hidden view becomes visible, reports it once and refreshes its
   * progress; a visible one only has its hide re-armed.
   */
  function Show(c: Controls, now: int, poll: bool): (r: Controls)
    ensures r.visible && r.attached == c.attached
    ensures r.notices == c.notices + (if c.visible then [] else [true])
    ensures r.hideAtMs == (if c.showTimeoutMs > 0 then Some(now + c.showTimeoutMs) else None)
    ensures |r.pendingHides| == (if c.showTimeoutMs > 0 && c.attached then 1 else 0)
    ensures r.showTimeoutMs == c.showTimeoutMs
    ensures c.visible ==> r == HideAfterTimeout(c, now)
    ensures !c.visible ==>
              r.pendingPolls == (if !c.attached then c.pendingPolls else if poll then 1 else 0)
              && r == HideAfterTimeout(RefreshProgress(c.(visible := true, notices := c.notices + [true]), poll), now)
    ensures Inv(c) ==> Inv(r)
  {
    var shown :=
      if !c.visible then RefreshProgress(c.(visible := true, notices := c.notices + [true]), poll)
      else c;
    HideAfterTimeout(shown, now)
  }

  /**
   * `hide`: a visible view becomes hidden, reports it once, and loses both
   * pending callbacks and its deadline; a hidden view is left alone.
   */
  function Hide(c: Controls): (r: Controls)
    ensures !r.visible && r.attached == c.attached && r.showTimeoutMs == c.showTimeoutMs
    ensures !c.visible ==> r == c
    ensures c.visible ==> r.notices == c.notices + [false]
    ensures c.visible ==> r.pendingHides == [] && r.pendingPolls == 0 && r.hideAtMs == None
    ensures Inv(c) ==> Inv(r)
  {
    if c.visible then
      c.(visible := false, notices := c.notices + [false], pendingPolls := 0, pendingHides := [], hideAtMs := None)
    else c
  }

  /** `setShowTimeoutMs`: a visible view re-arms its hide with the new timeout. */
  function SetShowTimeout(c: Controls, timeoutMs: int, now: int): (r: Controls)
    ensures r.showTimeoutMs == timeoutMs && r.visible == c.visible
    ensures c.visible ==> r == HideAfterTimeout(c.(showTimeoutMs := timeoutMs), now)
    ensures !c.visible ==> r == c.(showTimeoutMs := timeoutMs)
    ensures Inv(c) ==> Inv(r)
  {
    var updated := c.(showTimeoutMs := timeoutMs);
    if c.visible then HideAfterTimeout(updated, now) else updated
  }

  /**
   * `onAttachedToWindow`: a recorded deadline is resumed (an expired one
   * hides at once); without one a visible view arms a fresh timeout; then
   * progress is refreshed.
   */
  function Attach(c: Controls, now: int, poll: bool): (r: Controls)
    ensures r.attached && r.showTimeoutMs == c.showTimeoutMs
    ensures r.notices == c.notices + (if c.visible && c.hideAtMs.Some? && c.hideAtMs.value - now <= 0 then [false] else [])
    ensures r.visible ==> r.pendingPolls == (if poll then 1 else 0)
    ensures c.hideAtMs.Some? && c.hideAtMs.value - now <= 0 ==>
              !r.visible && (c.visible ==> r.hideAtMs.None? && r.pendingHides == [] && r.pendingPolls == 0)
    ensures c.hideAtMs.Some? && c.hideAtMs.value - now > 0 ==>
              r.visible == c.visible && r.hideAtMs == c.hideAtMs
              && r.pendingHides == c.pendingHides + [c.hideAtMs.value]
    ensures c.hideAtMs.None? && c.visible ==>
              r.visible && r.hideAtMs == HideAfterTimeout(c, now).hideAtMs
              && r.pendingHides == HideAfterTimeout(c.(attached := true), now).pendingHides
    ensures c.hideAtMs.None? && !c.visible ==> r.pendingHides == c.pendingHides && !r.visible
    ensures Inv(c) && !c.attached ==> Inv(r)
  {
    var a := c.(attached := true);
    var armed :=
      if a.hideAtMs.Some? then
        var delayMs := a.hideAtMs.value - now;
        if delayMs <= 0 then Hide(a) else a.(pendingHides := a.pendingHides + [now + delayMs])
      else if a.visible then HideAfterTimeout(a, now)
      else a;
    RefreshProgress(armed, poll)
  }

  /** `onDetachedFromWindow`: both pending callbacks are cancelled; the deadline is kept. */
  function Detach(c: Controls): (r: Controls)
    ensures !r.attached && r.pendingHides == [] && r.pendingPolls == 0
    ensures r.visible == c.visible && r.hideAtMs == c.hideAtMs && r.notices == c.notices
    ensures r.showTimeoutMs == c.showTimeoutMs
    ensures Inv(c) ==> Inv(r)
  {
    c.(attached := false, pendingPolls := 0, pendingHides := [])
  }

  /** `MotionEvent` actions the view reacts to. */
  datatype TouchAction = TouchDown | TouchUp | TouchOther

  /** `dispatchTouchEvent`: a press cancels the pending hide and a release re-arms it. */
  function Touch(c: Controls, action: TouchAction, now: int): (r: Controls)
    ensures action == TouchDown ==> r == c.(pendingHides := [])
    ensures action == TouchUp ==> r == HideAfterTimeout(c, now)
    ensures action == TouchOther ==> r == c
    ensures Inv(c) ==> Inv(r)
  {
    match action
    case TouchDown => c.(pendingHides := [])
    case TouchUp => HideAfterTimeout(c, now)
    case TouchOther => c
  }

  /** The earliest pending hide action runs: it leaves the queue and calls `hide`. */
  function HideFires(c: Controls): (r: Controls)
    ensures c.pendingHides == [] ==> r == c
    ensures c.pendingHides != [] ==> r == Hide(c.(pendingHides := c.pendingHides[1..]))
    ensures Inv(c) ==> Inv(r)
  {
    if c.pendingHides == [] then c else Hide(c.(pendingHides := c.pendingHides[1..]))
  }

  /** A pending progress poll runs: it leaves the queue and calls `updateProgress`. */
  function PollFires(c: Controls, poll: bool): (r: Controls)
    ensures c.pendingPolls == 0 ==> r == c
    ensures c.pendingPolls > 0 ==> r == RefreshProgress(c.(pendingPolls := c.pendingPolls - 1), poll)
    ensures Inv(c) ==> Inv(r)
  {
    if c.pendingPolls == 0 then c else RefreshProgress(c.(pendingPolls := c.pendingPolls - 1), poll)
  }

  // ---------------------------------------------------------------------------
  // Properties
  // ---------------------------------------------------------------------------

  /** A second `show` only moves the deadline: it is the first `show` done at the later time. */
  lemma ShowTwice(c: Controls, t1: int, t2: int, p1: bool, p2: bool)
    ensures Show(Show(c, t1, p1), t2, p2) == Show(c, t2, p1)
  {
  }

  /** `hide` is idempotent and reports nothing the second time. */
  lemma HideTwice(c: Controls)
    ensures Hide(Hide(c)) == Hide(c)
  {
  }

  /**
   * Detaching and re-attaching before the deadline resumes the same hide:
   * the view stays as it was and one hide is pending for the original
   * deadline. After the deadline, re-attaching hides at once.
   */
  lemma DetachAttachResumes(c: Controls, now: int, poll: bool)
    requires Inv(c) && c.hideAtMs.Some?
    ensures var r := Attach(Detach(c), now, poll);
            if c.hideAtMs.value > now then
              r.visible == c.visible && r.pendingHides == [c.hideAtMs.value] && r.hideAtMs == c.hideAtMs
            else !r.visible && r.pendingHides == [] && r.pendingPolls == 0 && (c.visible ==> r.hideAtMs.None?)
  {
  }

  /**
   * During a drag the controls cannot time out: after a press no hide is
   * pending, so the hide timer firing changes nothing; the release arms a
   * full timeout from the release time.
   */
  lemma DragKeepsControls(c: Controls, down: int, up: int)
    requires Inv(c) && c.visible
    ensures HideFires(Touch(c, TouchDown, down)) == Touch(c, TouchDown, down)
    ensures var r := Touch(Touch(c, TouchDown, down), TouchUp, up);
            r.visible && r.hideAtMs == (if c.showTimeoutMs > 0 then Some(up + c.showTimeoutMs) else None)
  {
  }

  /** A view that is shown and then left alone for its whole timeout is hidden by its own timer. */
  lemma ShownViewTimesOut(c: Controls, now: int, poll: bool)
    requires Inv(c) && c.attached && c.showTimeoutMs > 0
    ensures var shown := Show(c, now, poll);
            shown.pendingHides == [now + c.showTimeoutMs]
            && !HideFires(shown).visible
            && HideFires(shown).pendingHides == [] && HideFires(shown).pendingPolls == 0
  {
  }
}
